=== FILE: README.md ===
# PDB import scripts — a Dafny model of the payload layer

The repository's scripts collect metadata about newly released Protein Data Bank entries. The
metadata import asks the RCSB search service for the entries released since a date. It fetches
each entry's document from the RCSB data service, optionally looks up the entry's UniProt
accessions at the PDBe mapping service, and writes one CSV row per entry whose document the
data service returns. The mapping script reads a file of entry identifiers, one per line, and
writes each identifier with its UniProt accessions.

This project models the pure layer between the network calls:

- how a search answer becomes the list of entry identifiers;
- how an entry document becomes the five descriptive fields, with the scripts' defaults;
- how a mapping document becomes the list of accessions, and the two cell formats for it;
- the collection loop of the import and the table the CSV writer receives;
- the identifier-file reader and the one-row-per-identifier table of the mapping script.

Decoded JSON is the datatype `Json.Value`. Objects keep their members as a list of pairs, so
duplicated keys and key order follow Python's decoder: the last value wins and the key stays at
its first position. The Python operations the scripts apply to it are modelled with the
exceptions they raise: `.get`, `in`, `[...]`, `[0]`, `.keys()`, iteration and truthiness. An
exception becomes an `Err` value of `Py.Result`, which ends the run as an uncaught exception
ends the script. Each web service is a function parameter from address (or request body) to
`Response(status, body)`, where the body is the already-decoded JSON.

Modules, following the scripts' structure:

- `Py`: options and results.
- `Json`: values and the Python operations on them.
- `Text`: `strip`, `lower`, `upper`, `join`, line splitting.
- `Seqs`: the map, filter and collection-loop shapes.
- `Search`: `fetch_released_pdb_ids`.
- `Metadata`: the field extraction of `fetch_metadata`.
- `UniProt`: `get_uniprot_ids_from_pdb` and the cell formats.
- `Table`: `csv.DictWriter` as the scripts use it.
- `ImportV3` and `ImportV4`: the two import scripts.
- `UniProtMapping`: the mapping script.

Some behaviours of the scripts, kept as they are:

- the scripts neither deduplicate nor page search hits;
- the six-column import writes no row for an entry whose document is not returned;
- a malformed document or mapping answer raises, which ends the whole run and not just one entry;
- the two scripts write different cells for no accessions: `""` in the import and `N/A` in the
  mapping script.

## Model

| member | source | states |
|---|---|---|
| Json.Lookup | import_PDBs_csv_v4.py:58-63 | a member is found exactly when some pair carries the key, and the value found is that of the last pair with the key |
| Json.KeyList | import_PDBs_csv_v4.py:46 | the keys of an object are listed once each, no more of them than members, a string is listed exactly when it is a key, and the keys come in their order of first appearance among the members |
| Json.Get | import_PDBs_csv_v4.py:58-63 | `.get` succeeds exactly on dictionaries and yields the member when present, the default otherwise |
| Json.Contains | import_PDBs_csv_v4.py:43 | `in` succeeds exactly on dictionaries, lists and strings; on a dictionary it answers whether the key is a member |
| Json.Subscript | import_PDBs_csv_v4.py:46 | `v[k]` succeeds exactly when `v` is a dictionary holding `k`, and yields that member |
| Json.First | import_PDBs_csv_v4.py:62-64 | `[0]` on a truthy value succeeds exactly on lists and strings; on a list it is the first element |
| Json.Keys | import_PDBs_csv_v4.py:46 | `list(d.keys())` succeeds exactly on dictionaries, lists exactly the members, each once, in their order of first appearance |
| Json.TruthyMeansNonEmpty | import_PDBs_csv_v4.py:61-64 | a list, dictionary or string is truthy exactly when iterating it visits something; then `[0]` on a list or string is the first item visited |
| Json.Iterate | import_PDBs_csv_v4.py:30 | a `for` loop succeeds exactly on lists, dictionaries and strings; over a list it visits the elements in order, over a dictionary one string per key |
| Json.PathOfTwo | import_PDBs_csv_v4.py:58 | a two-key path is the inner member of the outer member, absent when either is absent |
| Text.Strip | PDBupdate_with_uniprot.py:42 | the stripped line is no longer than the line, neither starts nor ends with whitespace, and is empty exactly when the line is all whitespace |
| Text.StripIsTrimmedSlice | PDBupdate_with_uniprot.py:42 | stripping removes exactly the leading and trailing whitespace: it yields the slice flanked by whitespace that neither starts nor ends with whitespace |
| Text.StripIdempotent | PDBupdate_with_uniprot.py:42 | a stripped line is unchanged by stripping it again |
| Text.Lower | PDBupdate_with_uniprot.py:25 | lower-casing keeps the length, leaves no capital, turns each capital into the letter whose capital it is, and keeps every other character |
| Text.Upper | PDBupdate_with_uniprot.py:54 | upper-casing keeps the length, leaves no small letter, turns each small letter into its capital, and keeps every other character |
| Text.LowerOfUpper | PDBupdate_with_uniprot.py:25 | lower-casing an upper-cased identifier gives the same as lower-casing the identifier |
| Text.SplitLines | PDBupdate_with_uniprot.py:40-41 | cutting a text at its line breaks gives at least one piece and no piece holds a line break; which pieces come out is fixed by SplitLinesNoBreak and SplitLinesAtBreak |
| Text.SplitLinesNoBreak | PDBupdate_with_uniprot.py:40-41 | a text without `\n` or `\r` is a single piece |
| Text.SplitLinesAtBreak | PDBupdate_with_uniprot.py:40-41 | the text before the first `\n` or `\r` is the first piece, and the text after it gives the remaining pieces |
| Text.SplitLinesOfJoin | PDBupdate_with_uniprot.py:40-41 | lines without line breaks, written one per line, are read back as the same lines |
| Text.Join | import_PDBs_csv_v4.py:68 | joining nothing gives the empty string and one element gives that element; otherwise the text starts with the first element, then the separator, and is at least as long as the first element plus the separators |
| Text.JoinSnoc | import_PDBs_csv_v4.py:68 | one more element appends the whole separator and that element, so with the one-element case every joined text is determined |
| Text.JoinRoundTrip | import_PDBs_csv_v4.py:68 | a list joined with a separator whose first character occurs nowhere else splits back into the same list, unless the list is the single empty string; the parser removes the rest of the separator only where it is present |
| Seqs.MapAll | PDBupdate_with_uniprot.py:52-54 | a per-item step that may raise succeeds on the whole list exactly when it succeeds on every item; then there is one value per item, in order, and otherwise the error is that of the first failing item |
| Seqs.CollectAll | import_PDBs_csv_v4.py:102-107 | the loop raises exactly when some fetch raises, and then with the first failure; otherwise it yields no more records than items, each one returned by the fetch of some item |
| Seqs.CollectAllStopsAtError | import_PDBs_csv_v4.py:103-105 | once an item's fetch has raised, the items after it do not change the outcome |
| Seqs.CollectAllKeys | import_PDBs_csv_v4.py:102-107 | when each record names its item, the records name exactly the items whose fetch yields a record, in input order: an order-preserving filter |
| Seqs.Collect | import_PDBs_csv_v4.py:102-107 | the `for` loop that appends each yielded record computes the collection, and the output is never longer than the input |
| Seqs.FilterAppend | import_PDBs_csv_v4.py:102-107 | filtering keeps order: the kept items of a concatenation are those of each part, in sequence |
| Seqs.FilterPartition | import_PDBs_csv_v4.py:102-107 | the kept and the dropped items add up to all items |
| Seqs.FilterMembership | import_PDBs_csv_v4.py:102-107 | an item is kept exactly when it is in the input and passes the test |
| Search.Query | import_PDBs_csv_v4.py:8-22 | the request body holds the terminal text-service node, `entry` as the return type, and the option asking for all hits |
| Search.QueryCondition | import_PDBs_csv_v4.py:8-17 | the search asks for entries whose `rcsb_accession_info.initial_release_date` is `greater_or_equal` to the given date |
| Search.QueryOptions | import_PDBs_csv_v4.py:18-21 | the search asks for entries as results, with every hit requested |
| Search.Identifier | import_PDBs_csv_v4.py:30 | `item["identifier"]` succeeds exactly when the hit is an object with a string `identifier`, and yields it |
| Search.ResultIds | import_PDBs_csv_v4.py:24-32 | an unsuccessful status yields no identifiers; a body that is not an object raises; a missing `result_set` yields none; a list yields exactly its hits' identifiers, one per hit, in order, or raises when a hit lacks one; other `result_set` values raise unless empty |
| Search.Discover | import_PDBs_csv_v4.py:24-32 | the answer to the release-date query gives no identifiers for an unsuccessful status; for a list of hits it succeeds exactly when every hit has a string identifier, and gives one identifier per hit, in order |
| Search.RepeatedHitsAreKept | import_PDBs_csv_v4.py:30 | for every list of hits, identifiers are neither deduplicated nor reordered: one per hit in order, so two equal hits give the same identifier at both positions |
| Metadata.NestedGet | import_PDBs_csv_v4.py:58-60 | `data.get(outer, {}).get(inner, d)` succeeds exactly when the document is an object whose `outer` member is an object or absent, and then yields the nested member or `d` |
| Metadata.Extract | import_PDBs_csv_v4.py:56-64 | the extraction succeeds exactly on well-shaped documents. Title and PubMed id are the nested members or `""`. The method is `""` for an absent or falsy `exptl`, else the first element's `method` or `""`. The resolution is `None` for an absent or falsy `resolution_combined`, else its first element (the first character of a string) |
| UniProt.Lookup | import_PDBs_csv_v4.py:35-46 | the lower-cased id is both the address and the key. An unsuccessful status, a missing id key or a missing `UniProt` key yield no accessions. A present `UniProt` member must be an object, and the accessions are then exactly its keys, each once, in order of first appearance. A null, boolean or number answer or id member raises; a list or string answer or id member yields no accessions when the searched key is not in it and raises when it is |
| UniProt.LookupIgnoresCase | PDBupdate_with_uniprot.py:25-36 | identifiers differing only in letter case get the same accessions |
| UniProt.ImportCell | import_PDBs_csv_v4.py:68 | the import cell is empty exactly when there is no accession (or only an empty one), and a single accession is the cell itself |
| UniProt.ImportCellSnoc | import_PDBs_csv_v4.py:68 | each further accession is written after a comma and a space |
| UniProt.MappingCell | PDBupdate_with_uniprot.py:54 | the mapping cell is `N/A` exactly when there is no accession or the only one is `N/A`, and a single accession is the cell itself |
| UniProt.MappingCellSnoc | PDBupdate_with_uniprot.py:54 | each further accession is written after a comma |
| UniProt.ImportCellRoundTrip | import_PDBs_csv_v4.py:68 | the `", "`-joined cell reads back as the same accessions when none contains a comma |
| UniProt.MappingCellRoundTrip | PDBupdate_with_uniprot.py:54 | the `","`-joined cell, `N/A` when empty, reads back as the same accessions unless the only accession is `N/A` itself |
| Table.DictRow | import_PDBs_csv_v4.py:86 | a row is written exactly when the dictionary has no key outside the header; each header field gets the dictionary's value, or `""` when missing |
| Table.WriteDicts | import_PDBs_csv_v4.py:80-86 | the table is the header followed by exactly one row per dictionary, in order, with each cell the dictionary's value for that column |
| ImportV3.AsDict | import_PDBs_csv_v3.py:59-65 | the record has exactly the five header keys, and `PDB_ID` is the identifier |
| ImportV3.FetchMetadata | import_PDBs_csv_v3.py:35-65 | an unsuccessful status yields no record; otherwise the call succeeds exactly on a well-shaped document, and the record holds the identifier unchanged and the extracted fields |
| ImportV3.CollectedRecords | import_PDBs_csv_v3.py:90-95 | the collected records are, in discovery order, exactly one per entry whose document was returned |
| ImportV3.RowInHeaderOrder | import_PDBs_csv_v3.py:69-74 | a row holding the record's values in header order is the record's row |
| ImportV3.WrittenRows | import_PDBs_csv_v3.py:68-75 | writing records never raises and gives the five-column header and then one row per record, in order |
| ImportV3.Run | import_PDBs_csv_v3.py:86-100 | a discovery answer that raises ends the run; an unsuccessful search status or no hits writes no file; otherwise the run succeeds exactly when every returned document is well-shaped. The file then holds the header and one row per reachable entry, in discovery order, at most one per identifier |
| ImportV4.AsDict | import_PDBs_csv_v4.py:70-77 | the record has exactly the six header keys, and `PDB_ID` is the identifier |
| ImportV4.FetchMetadata | import_PDBs_csv_v4.py:49-77 | an unsuccessful status yields no record and asks no mapping. Otherwise the call succeeds exactly when the document is well-shaped and the mapping lookup succeeds. The record then holds the identifier unchanged, the extracted fields and the `", "`-joined accessions |
| ImportV4.CollectedRecords | import_PDBs_csv_v4.py:102-107 | the collected records are, in discovery order, exactly one per entry whose document was returned, each with that entry's accession cell |
| ImportV4.RowInHeaderOrder | import_PDBs_csv_v4.py:81-86 | a row holding the record's values in header order is the record's row |
| ImportV4.WrittenRows | import_PDBs_csv_v4.py:80-86 | writing records never raises and gives the six-column header and then one row per record, in order |
| ImportV4.Run | import_PDBs_csv_v4.py:98-112 | a discovery answer that raises ends the run; an unsuccessful search status or no hits writes no file; otherwise the run succeeds exactly when every returned entry's document and mapping can be read. The file then holds the header and one row per reachable entry, in discovery order, at most one per identifier |
| UniProtMapping.ReadPdbIds | PDBupdate_with_uniprot.py:38-45 | every identifier read is a stripped line of the file, never empty and already stripped |
| UniProtMapping.ReadKeepsOrder | PDBupdate_with_uniprot.py:41-44 | the identifiers of two consecutive stretches of lines are those of the first followed by those of the second |
| UniProtMapping.ReadDropsOnlyBlankLines | PDBupdate_with_uniprot.py:42-44 | identifiers read and blank lines add up to the number of lines |
| UniProtMapping.BlankLineSkipped | PDBupdate_with_uniprot.py:43 | a blank or whitespace-only line, wherever it stands, contributes nothing |
| UniProtMapping.CrLfReadsAsOneLine | PDBupdate_with_uniprot.py:40-44 | a line ended by `\r\n`, as `csv.writer` ends its rows, gives the same identifiers as that line alone |
| UniProtMapping.CleanIdsRead | PDBupdate_with_uniprot.py:41-44 | lines that are already clean identifiers are read unchanged |
| UniProtMapping.IdFileRoundTrip | PDBupdate_with_uniprot.py:38-45 | a file of clean identifiers written one per line reads back as the same identifiers |
| UniProtMapping.MappingRow | PDBupdate_with_uniprot.py:53-54 | a row is produced exactly when the lookup succeeds; it has the two header columns, its identifier is the one read in upper case (so equal to it up to letter case), its cell is the mapping cell of the accessions found, and that cell is `N/A` exactly when no accession (or only `N/A`) was found |
| UniProtMapping.ProcessPdbIds | PDBupdate_with_uniprot.py:47-56 | the table is the header `PDB_ID, UniProt_IDs` followed by exactly one row per identifier, in order, holding the upper-cased identifier and its accession cell; it raises exactly when some lookup raises |
| UniProtMapping.RowReadsBack | PDBupdate_with_uniprot.py:54 | a written row's identifier looks up the same accessions as the identifier read, and its cell reads back as exactly those accessions |

## Left out

- HTTP requests, JSON decoding, `print` and `time.sleep`: the services are function parameters and their answers are already decoded.
- The date prompt and its `datetime.strptime` check (import_PDBs_csv_v4.py:91-96): a run starts from the date as given.
- The output file name built from the current date (import_PDBs_csv_v4.py:110-111), and the mapping script's file names.
- The CSV writer's text output: quoting, line endings, UTF-8 encoding and how `None` and numbers become text. A table is a list of rows of Python values.
- `strip`, `lower` and `upper` are modelled over ASCII only.
- PDBupdate_with_uniprot.py:7-21, import_PDBs.py and import_PDBs_csv_v2.py go through `rcsbapi.search.AttributeQuery`, which is not part of this model.
- import_PDBs_csv_v2.1.py is not modelled separately: its only pure step is the `result_set` extraction of `Search.ResultIds`.
- Search.Identifier: a hit whose `identifier` is not a JSON string raises `NotAString`, while the script would carry the non-string value along.
- Search.ResultIds: for the same reason, a hit list with a non-string identifier is reported as an error.
- Search.ResultIds: for a `result_set` that is a non-empty object or string, the contract states only that the call raises, not which exception.
- UniProtMapping.ProcessPdbIds: when a lookup raises, the result is only the error. The script has already written the header and earlier rows to its file at that point.
- UniProtMapping.ReadPdbIds takes the file as its list of lines. Cutting a text into lines is `Text.SplitLines`, used by `UniProtMapping.IdFileRoundTrip`. It yields empty pieces a text-mode file does not: one after the `\r` of a `\r\n` pair, one after a final line break, and the single piece `""` of an empty text. The reader drops each of them like any blank line (`UniProtMapping.BlankLineSkipped`; for `\r\n`, `UniProtMapping.CrLfReadsAsOneLine`), so the identifiers read are the same.

=== FILE: import_v3.dfy ===
/** The five-column metadata import: discover the entries released since a date, fetch each
    entry's document, and write one row per entry whose document could be fetched. */
module ImportV3 {
  import opened Py
  import opened Json
  import opened Metadata
  import opened Table
  import Seqs
  import Search

  const Fields: seq<string> := ["PDB_ID", "Title", "PubMed_ID", "Resolution (Å)", "Experimental Method"]

  /** The dictionary `fetch_metadata` returns. */
  datatype Record = Record(pdbId: string, entry: Entry)

  /** The record as the dictionary handed to the CSV writer. */
  function AsDict(r: Record): (d: map<string, Value>)
    ensures d.Keys == set f | f in Fields
    ensures d[Fields[0]] == JStr(r.pdbId)
  {
    map["PDB_ID" := JStr(r.pdbId),
        "Title" := r.entry.title,
        "PubMed_ID" := r.entry.pubmedId,
        "Resolution (Å)" := r.entry.resolution,
        "Experimental Method" := r.entry.expMethod]
  }

  /** The row an entry's record becomes, in column order. */
  function RowOf(pdbId: string, e: Entry): Row {
    [JStr(pdbId), e.title, e.pubmedId, e.resolution, e.expMethod]
  }

  /** `fetch_metadata`: no record for an unsuccessful status, the extracted record otherwise. */
  function FetchMetadata(pdbId: string, entryApi: string -> Response): (r: Result<Option<Record>>)
    ensures !Reachable(entryApi, pdbId) ==> r == Ok(None)
    ensures Reachable(entryApi, pdbId) ==>
              (r.Ok? <==> WellShaped(entryApi(EntryUrl(pdbId)).body)) && (r.Ok? ==> r.value.Some?)
    ensures r.Ok? && r.value.Some? ==>
              r.value.value.pdbId == pdbId && Extract(entryApi(EntryUrl(pdbId)).body) == Ok(r.value.value.entry)
  {
    var response := entryApi(EntryUrl(pdbId));
    if response.status != 200 then Ok(None)
    else
      var e :- Extract(response.body);
      Ok(Some(Record(pdbId, e)))
  }

  /** The collected records are, in order, the records of the reachable entries. */
  lemma {:induction false} CollectedRecords(ids: seq<string>, entryApi: string -> Response)
    requires Seqs.CollectAll(ids, id => FetchMetadata(id, entryApi)).Ok?
    ensures var records := Seqs.CollectAll(ids, id => FetchMetadata(id, entryApi)).value;
            var kept := Kept(ids, entryApi);
            && |records| == |kept|
            && forall k :: 0 <= k < |kept| ==>
                 Extract(entryApi(EntryUrl(kept[k])).body).Ok?
                 && records[k] == Record(kept[k], Extract(entryApi(EntryUrl(kept[k])).body).value)
  {
    var f := id => FetchMetadata(id, entryApi);
    var records := Seqs.CollectAll(ids, f).value;
    Seqs.CollectAllKeys(ids, f, (rec: Record) => rec.pdbId, id => Reachable(entryApi, id));
    var kept := Kept(ids, entryApi);
    assert |Seqs.Map(records, (rec: Record) => rec.pdbId)| == |records|;
    forall k | 0 <= k < |kept|
      ensures Extract(entryApi(EntryUrl(kept[k])).body).Ok?
      ensures records[k] == Record(kept[k], Extract(entryApi(EntryUrl(kept[k])).body).value)
    {
      assert records[k].pdbId == kept[k];
      var i :| 0 <= i < |ids| && f(ids[i]) == Ok(Some(records[k]));
      assert FetchMetadata(ids[i], entryApi) == Ok(Some(records[k]));
    }
  }

  /** A written row holds the record's dictionary values in header order. */
  lemma RowInHeaderOrder(rec: Record, row: Row)
    requires |row| == |Fields|
    requires forall j :: 0 <= j < |Fields| ==> Fields[j] in AsDict(rec) && row[j] == AsDict(rec)[Fields[j]]
    ensures row == RowOf(rec.pdbId, rec.entry)
  {
    var d := AsDict(rec);
    forall j | 0 <= j < |Fields| ensures row[j] == RowOf(rec.pdbId, rec.entry)[j] {
      assert row[j] == d[Fields[j]];
    }
  }

  /** The records as written: the fixed header, then one row per record. */
  lemma WrittenRows(records: seq<Record>)
    ensures var t := WriteDicts(Fields, Seqs.Map(records, AsDict));
            && t.Ok? && |t.value| == |records| + 1 && t.value[0] == HeaderRow(Fields)
            && forall k :: 0 <= k < |records| ==> t.value[k + 1] == RowOf(records[k].pdbId, records[k].entry)
  {
    var dicts := Seqs.Map(records, AsDict);
    forall i | 0 <= i < |dicts| ensures forall key :: key in dicts[i] ==> key in Fields {
      assert dicts[i] == AsDict(records[i]);
    }
    var t := WriteDicts(Fields, dicts);
    forall k | 0 <= k < |records| ensures t.value[k + 1] == RowOf(records[k].pdbId, records[k].entry) {
      assert dicts[k] == AsDict(records[k]);
      forall j | 0 <= j < |Fields| ensures Fields[j] in dicts[k] {
        assert Fields[j] in dicts[k].Keys;
      }
      RowInHeaderOrder(records[k], t.value[k + 1]);
    }
  }

  /** `main` after the date check: discover, collect, and write. */
  method Run(sinceDate: string, searchApi: Value -> Response, entryApi: string -> Response)
    returns (r: Result<Outcome>)
    ensures Search.Discover(sinceDate, searchApi).Err? ==> r.Err?
    ensures Search.Discover(sinceDate, searchApi) == Ok([]) ==> r == Ok(NothingWritten)
    ensures Search.Discover(sinceDate, searchApi).Ok? && |Search.Discover(sinceDate, searchApi).value| > 0 ==>
              var ids := Search.Discover(sinceDate, searchApi).value;
              && (r.Ok? <==> forall i :: 0 <= i < |ids| && Reachable(entryApi, ids[i]) ==>
                                          WellShaped(entryApi(EntryUrl(ids[i])).body))
              && (r.Ok? ==> r.value.Written?)
    ensures r.Ok? && r.value.Written? ==>
              var kept := Kept(Search.Discover(sinceDate, searchApi).value, entryApi);
              var t := r.value.table;
              && |t| == |kept| + 1 <= |Search.Discover(sinceDate, searchApi).value| + 1
              && t[0] == HeaderRow(Fields)
              && forall k :: 0 <= k < |kept| ==>
                   Extract(entryApi(EntryUrl(kept[k])).body).Ok?
                   && t[k + 1] == RowOf(kept[k], Extract(entryApi(EntryUrl(kept[k])).body).value)
  {
    var ids :- Search.Discover(sinceDate, searchApi);
    if |ids| == 0 {
      return Ok(NothingWritten);
    }
    var f := id => FetchMetadata(id, entryApi);
    var records :- Seqs.Collect(ids, f);
    CollectedRecords(ids, entryApi);
    WrittenRows(records);
    // every record has exactly the header's keys, so the writer cannot raise here
    var table := WriteDicts(Fields, Seqs.Map(records, AsDict)).value;
    return Ok(Written(table));
  }
}

=== FILE: import_v4.dfy ===
/** The six-column metadata import: as the five-column one, with each entry's UniProt
    accessions from the PDBe mapping service added as a last column. */
module ImportV4 {
  import opened Py
  import opened Json
  import opened Metadata
  import opened Table
  import Seqs
  import Search
  import UniProt

  const Fields: seq<string> :=
    ["PDB_ID", "Title", "PubMed_ID", "Resolution (Å)", "Experimental Method", "UniProt_IDs"]

  /** The dictionary `fetch_metadata` returns. */
  datatype Record = Record(pdbId: string, entry: Entry, uniprotIds: string)

  /** The record as the dictionary handed to the CSV writer. */
  function AsDict(r: Record): (d: map<string, Value>)
    ensures d.Keys == set f | f in Fields
    ensures d[Fields[0]] == JStr(r.pdbId)
  {
    map["PDB_ID" := JStr(r.pdbId),
        "Title" := r.entry.title,
        "PubMed_ID" := r.entry.pubmedId,
        "Resolution (Å)" := r.entry.resolution,
        "Experimental Method" := r.entry.expMethod,
        "UniProt_IDs" := JStr(r.uniprotIds)]
  }

  /** The row an entry's record becomes, in column order. */
  function RowOf(pdbId: string, e: Entry, uniprotIds: string): Row {
    [JStr(pdbId), e.title, e.pubmedId, e.resolution, e.expMethod, JStr(uniprotIds)]
  }

  /** Whether both payloads of an entry can be read: the entry document when it is returned,
      and then the mapping document. */
  predicate Readable(entryApi: string -> Response, mappingApi: string -> Response, pdbId: string) {
    Reachable(entryApi, pdbId) ==>
      WellShaped(entryApi(EntryUrl(pdbId)).body) && UniProt.Lookup(pdbId, mappingApi).Ok?
  }

  /** `fetch_metadata`: no record for an unsuccessful status (the mapping service is then not
      asked); otherwise the extracted fields and the accession cell. */
  function FetchMetadata(pdbId: string, entryApi: string -> Response, mappingApi: string -> Response)
    : (r: Result<Option<Record>>)
    ensures !Reachable(entryApi, pdbId) ==> r == Ok(None)
    ensures r.Ok? <==> Readable(entryApi, mappingApi, pdbId)
    ensures Reachable(entryApi, pdbId) && r.Ok? ==> r.value.Some?
    ensures r.Ok? && r.value.Some? ==>
              && r.value.value.pdbId == pdbId
              && Extract(entryApi(EntryUrl(pdbId)).body) == Ok(r.value.value.entry)
              && r.value.value.uniprotIds == UniProt.ImportCell(UniProt.Lookup(pdbId, mappingApi).value)
  {
    var response := entryApi(EntryUrl(pdbId));
    if response.status != 200 then Ok(None)
    else
      var e :- Extract(response.body);
      var accessions :- UniProt.Lookup(pdbId, mappingApi);
      Ok(Some(Record(pdbId, e, UniProt.ImportCell(accessions))))
  }

  /** The collected records are, in order, the records of the reachable entries. */
  lemma {:induction false} CollectedRecords(ids: seq<string>, entryApi: string -> Response, mappingApi: string -> Response)
    requires Seqs.CollectAll(ids, id => FetchMetadata(id, entryApi, mappingApi)).Ok?
    ensures var records := Seqs.CollectAll(ids, id => FetchMetadata(id, entryApi, mappingApi)).value;
            var kept := Kept(ids, entryApi);
            && |records| == |kept|
            && forall k :: 0 <= k < |kept| ==>
                 Extract(entryApi(EntryUrl(kept[k])).body).Ok?
                 && UniProt.Lookup(kept[k], mappingApi).Ok?
                 && records[k] == Record(kept[k], Extract(entryApi(EntryUrl(kept[k])).body).value,
                                         UniProt.ImportCell(UniProt.Lookup(kept[k], mappingApi).value))
  {
    var f := id => FetchMetadata(id, entryApi, mappingApi);
    var records := Seqs.CollectAll(ids, f).value;
    Seqs.CollectAllKeys(ids, f, (rec: Record) => rec.pdbId, id => Reachable(entryApi, id));
    var kept := Kept(ids, entryApi);
    assert |Seqs.Map(records, (rec: Record) => rec.pdbId)| == |records|;
    forall k | 0 <= k < |kept|
      ensures Extract(entryApi(EntryUrl(kept[k])).body).Ok?
      ensures UniProt.Lookup(kept[k], mappingApi).Ok?
      ensures records[k] == Record(kept[k], Extract(entryApi(EntryUrl(kept[k])).body).value,
                                   UniProt.ImportCell(UniProt.Lookup(kept[k], mappingApi).value))
    {
      assert records[k].pdbId == kept[k];
      var i :| 0 <= i < |ids| && f(ids[i]) == Ok(Some(records[k]));
      assert FetchMetadata(ids[i], entryApi, mappingApi) == Ok(Some(records[k]));
    }
  }

  /** A written row holds the record's dictionary values in header order. */
  lemma RowInHeaderOrder(rec: Record, row: Row)
    requires |row| == |Fields|
    requires forall j :: 0 <= j < |Fields| ==> Fields[j] in AsDict(rec) && row[j] == AsDict(rec)[Fields[j]]
    ensures row == RowOf(rec.pdbId, rec.entry, rec.uniprotIds)
  {
    var d := AsDict(rec);
    forall j | 0 <= j < |Fields| ensures row[j] == RowOf(rec.pdbId, rec.entry, rec.uniprotIds)[j] {
      assert row[j] == d[Fields[j]];
    }
  }

  /** The records as written: the fixed header, then one row per record. */
  lemma WrittenRows(records: seq<Record>)
    ensures var t := WriteDicts(Fields, Seqs.Map(records, AsDict));
            && t.Ok? && |t.value| == |records| + 1 && t.value[0] == HeaderRow(Fields)
            && forall k :: 0 <= k < |records| ==> t.value[k + 1] == RowOf(records[k].pdbId, records[k].entry, records[k].uniprotIds)
  {
    var dicts := Seqs.Map(records, AsDict);
    forall i | 0 <= i < |dicts| ensures forall key :: key in dicts[i] ==> key in Fields {
      assert dicts[i] == AsDict(records[i]);
    }
    var t := WriteDicts(Fields, dicts);
    forall k | 0 <= k < |records| ensures t.value[k + 1] == RowOf(records[k].pdbId, records[k].entry, records[k].uniprotIds) {
      assert dicts[k] == AsDict(records[k]);
      forall j | 0 <= j < |Fields| ensures Fields[j] in dicts[k] {
        assert Fields[j] in dicts[k].Keys;
      }
      RowInHeaderOrder(records[k], t.value[k + 1]);
    }
  }

  /** `main` after the date check: discover, collect, and write. */
  method Run(sinceDate: string, searchApi: Value -> Response, entryApi: string -> Response,
             mappingApi: string -> Response)
    returns (r: Result<Outcome>)
    ensures Search.Discover(sinceDate, searchApi).Err? ==> r.Err?
    ensures Search.Discover(sinceDate, searchApi) == Ok([]) ==> r == Ok(NothingWritten)
    ensures Search.Discover(sinceDate, searchApi).Ok? && |Search.Discover(sinceDate, searchApi).value| > 0 ==>
              var ids := Search.Discover(sinceDate, searchApi).value;
              && (r.Ok? <==> forall i :: 0 <= i < |ids| ==> Readable(entryApi, mappingApi, ids[i]))
              && (r.Ok? ==> r.value.Written?)
    ensures r.Ok? && r.value.Written? ==>
              var kept := Kept(Search.Discover(sinceDate, searchApi).value, entryApi);
              var t := r.value.table;
              && |t| == |kept| + 1 <= |Search.Discover(sinceDate, searchApi).value| + 1
              && t[0] == HeaderRow(Fields)
              && forall k :: 0 <= k < |kept| ==>
                   Extract(entryApi(EntryUrl(kept[k])).body).Ok?
                   && UniProt.Lookup(kept[k], mappingApi).Ok?
                   && t[k + 1] == RowOf(kept[k], Extract(entryApi(EntryUrl(kept[k])).body).value,
                                        UniProt.ImportCell(UniProt.Lookup(kept[k], mappingApi).value))
  {
    var ids :- Search.Discover(sinceDate, searchApi);
    if |ids| == 0 {
      return Ok(NothingWritten);
    }
    var f := id => FetchMetadata(id, entryApi, mappingApi);
    var records :- Seqs.Collect(ids, f);
    CollectedRecords(ids, entryApi, mappingApi);
    WrittenRows(records);
    // every record has exactly the header's keys, so the writer cannot raise here
    var table := WriteDicts(Fields, Seqs.Map(records, AsDict)).value;
    return Ok(Written(table));
  }
}

=== FILE: json.dfy ===
/** Decoded JSON values as the scripts see them after `response.json()`, and the handful of
    Python operations the scripts apply to them (`.get`, `in`, `[...]`, `.keys()`, `for`,
    truthiness). */
module Json {
  import opened Py

  /** A decoded JSON value. An object keeps its members as written; when a key occurs more
      than once, Python's decoder keeps the key at its first position with its last value. */
  datatype Value =
    | JNull
    | JBool(b: bool)
    | JNum(n: real)
    | JStr(s: string)
    | JArr(items: seq<Value>)
    | JObj(entries: seq<(string, Value)>)

  /** One HTTP exchange: the status code and the decoded body. */
  datatype Response = Response(status: int, body: Value)

  const EmptyObject: Value := JObj([])

  /** The value a decoded object holds for `k`: the last member with that key. */
  function Lookup(entries: seq<(string, Value)>, k: string): (r: Option<Value>)
    ensures r.Some? <==> exists i :: 0 <= i < |entries| && entries[i].0 == k
    ensures r.Some? ==> exists i :: 0 <= i < |entries| && entries[i] == (k, r.value)
                                   && forall j :: i < j < |entries| ==> entries[j].0 != k
    decreases |entries|
  {
    if |entries| == 0 then None
    else if entries[|entries| - 1].0 == k then Some(entries[|entries| - 1].1)
    else Lookup(entries[..|entries| - 1], k)
  }

  /** A key that occurs once is looked up at its only position. */
  lemma LookupUnique(entries: seq<(string, Value)>, k: string, i: nat)
    requires i < |entries| && entries[i].0 == k
    requires forall j :: 0 <= j < |entries| && j != i ==> entries[j].0 != k
    ensures Lookup(entries, k) == Some(entries[i].1)
  {
  }

  /** `a` occurs as a key before any occurrence of `b`. */
  predicate Before(entries: seq<(string, Value)>, a: string, b: string) {
    exists p :: 0 <= p < |entries| && entries[p].0 == a && forall q :: 0 <= q <= p ==> entries[q].0 != b
  }

  /** A key that comes first in some members still does once more members follow. */
  lemma BeforeExtends(entries: seq<(string, Value)>, more: seq<(string, Value)>, a: string, b: string)
    requires Before(entries, a, b)
    ensures Before(entries + more, a, b)
  {
    var p :| 0 <= p < |entries| && entries[p].0 == a && forall q :: 0 <= q <= p ==> entries[q].0 != b;
    assert forall q :: 0 <= q <= p ==> (entries + more)[q] == entries[q];
  }

  /** One more member keeps the first-occurrence order of the keys listed so far, and a key
      seen for the first time comes after all of them. */
  lemma KeyOrderStep(init: seq<(string, Value)>, last: (string, Value), ks: seq<string>)
    requires forall k :: k in ks <==> exists i :: 0 <= i < |init| && init[i].0 == k
    requires forall i, j :: 0 <= i < j < |ks| ==> Before(init, ks[i], ks[j])
    ensures forall i, j :: 0 <= i < j < |ks| ==> Before(init + [last], ks[i], ks[j])
    ensures last.0 !in ks ==> forall i :: 0 <= i < |ks| ==> Before(init + [last], ks[i], last.0)
  {
    var entries := init + [last];
    forall i, j | 0 <= i < j < |ks| ensures Before(entries, ks[i], ks[j]) {
      BeforeExtends(init, [last], ks[i], ks[j]);
    }
    if last.0 !in ks {
      forall i | 0 <= i < |ks| ensures Before(entries, ks[i], last.0) {
        assert ks[i] in ks;
        var p :| 0 <= p < |init| && init[p].0 == ks[i];
        assert entries[p].0 == ks[i];
        forall q | 0 <= q <= p ensures entries[q].0 != last.0 {
          assert entries[q] == init[q];
        }
      }
    }
  }

  /** `list(d.keys())`: every key once, in order of first occurrence. */
  function KeyList(entries: seq<(string, Value)>): (ks: seq<string>)
    ensures |ks| <= |entries|
    ensures forall k :: k in ks <==> exists i :: 0 <= i < |entries| && entries[i].0 == k
    ensures forall i, j :: 0 <= i < j < |ks| ==> ks[i] != ks[j]
    ensures forall i, j :: 0 <= i < j < |ks| ==> Before(entries, ks[i], ks[j])
    decreases |entries|
  {
    if |entries| == 0 then []
    else
      var init, last := entries[..|entries| - 1], entries[|entries| - 1];
      var ks := KeyList(init);
      assert entries == init + [last];
      assert forall i :: 0 <= i < |init| ==> entries[i] == init[i];
      KeyOrderStep(init, last, ks);
      if last.0 in ks then ks
      else
        var next := ks + [last.0];
        assert forall i :: 0 <= i < |ks| ==> next[i] == ks[i];
        next
  }

  /** The member `k` of an object; `None` for a missing key or a value that is not an object. */
  function Field(v: Value, k: string): Option<Value> {
    if v.JObj? then Lookup(v.entries, k) else None
  }

  /** Follows a chain of object keys, as `v[k0][k1]...` would on well-formed input. */
  function Path(v: Value, ks: seq<string>): Option<Value>
    decreases |ks|
  {
    if |ks| == 0 then Some(v)
    else
      match Field(v, ks[0])
      case None => None
      case Some(child) => Path(child, ks[1..])
  }

  /** A path whose first key is present continues from that key's value. */
  lemma PathThrough(v: Value, k: string, ks: seq<string>)
    requires Field(v, k).Some?
    ensures Path(v, [k] + ks) == Path(Field(v, k).value, ks)
  {
    assert ([k] + ks)[0] == k && ([k] + ks)[1..] == ks;
  }

  /** A two-key path is a field of a field. */
  lemma PathOfTwo(v: Value, outer: string, inner: string)
    ensures Path(v, [outer, inner]) == match Field(v, outer) { case None => None case Some(c) => Field(c, inner) }
  {
    assert [outer, inner][1..] == [inner];
    assert [inner][1..] == [];
    match Field(v, outer)
    case None =>
    case Some(c) =>
      match Field(c, inner)
      case None =>
      case Some(x) => assert Path(x, []) == Some(x);
  }

  /** Python truthiness of a decoded value. */
  predicate Truthy(v: Value) {
    match v
    case JNull => false
    case JBool(b) => b
    case JNum(n) => n != 0.0
    case JStr(s) => |s| > 0
    case JArr(items) => |items| > 0
    case JObj(entries) => |entries| > 0
  }

  /** A container is truthy exactly when a `for` loop over it visits something, and then
      `[0]` on a list or a string yields the first item the loop visits. */
  lemma TruthyMeansNonEmpty(v: Value)
    requires v.JArr? || v.JObj? || v.JStr?
    ensures Truthy(v) <==> |Iterate(v).value| > 0
    ensures Truthy(v) && (v.JArr? || v.JStr?) ==> First(v) == Ok(Iterate(v).value[0])
  {
    if v.JObj? && |v.entries| > 0 {
      assert v.entries[0].0 in KeyList(v.entries);
    }
  }

  /** Python's `k in s` on two strings. */
  predicate IsSubstring(k: string, s: string)
    decreases |s|
  {
    (|k| <= |s| && s[..|k|] == k) || (|s| > 0 && IsSubstring(k, s[1..]))
  }

  /** `v.get(k, default)`: only dictionaries have `.get`. */
  function Get(v: Value, k: string, default: Value): (r: Result<Value>)
    ensures r.Ok? <==> v.JObj?
    ensures r.Ok? ==> r.value == Field(v, k).GetOr(default)
  {
    if v.JObj? then Ok(Lookup(v.entries, k).GetOr(default)) else Err(AttributeError)
  }

  /** `k in v` for a string `k`: key membership for a dictionary, element equality for a list,
      substring for a string; anything else is not a container. */
  function Contains(v: Value, k: string): (r: Result<bool>)
    ensures r.Ok? <==> v.JObj? || v.JArr? || v.JStr?
    ensures v.JObj? ==> r == Ok(Field(v, k).Some?)
  {
    match v
    case JObj(entries) => Ok(Lookup(entries, k).Some?)
    case JArr(items) => Ok(JStr(k) in items)
    case JStr(s) => Ok(IsSubstring(k, s))
    case _ => Err(TypeError)
  }

  /** `v[k]` for a string `k`: lists and strings need integer indices. */
  function Subscript(v: Value, k: string): (r: Result<Value>)
    ensures r.Ok? <==> Field(v, k).Some?
    ensures r.Ok? ==> Some(r.value) == Field(v, k)
  {
    match v
    case JObj(entries) =>
      (match Lookup(entries, k)
       case Some(x) => Ok(x)
       case None => Err(KeyError(k)))
    case _ => Err(TypeError)
  }

  /** `v[0]` on a truthy value. A string yields its first character; a dictionary has no
      key `0` because decoded keys are strings. */
  function First(v: Value): (r: Result<Value>)
    requires Truthy(v)
    ensures r.Ok? <==> v.JArr? || v.JStr?
    ensures v.JArr? ==> r == Ok(v.items[0])
  {
    match v
    case JArr(items) => Ok(items[0])
    case JStr(s) => Ok(JStr([s[0]]))
    case JObj(_) => Err(KeyError("0"))
    case _ => Err(TypeError)
  }

  /** `list(v.keys())`: only dictionaries have `.keys()`. */
  function Keys(v: Value): (r: Result<seq<string>>)
    ensures r.Ok? <==> v.JObj?
    ensures r.Ok? ==> forall k :: k in r.value <==> Field(v, k).Some?
    ensures r.Ok? ==> forall i, j :: 0 <= i < j < |r.value| ==> r.value[i] != r.value[j]
    ensures r.Ok? ==> forall i, j :: 0 <= i < j < |r.value| ==> Before(v.entries, r.value[i], r.value[j])
  {
    if v.JObj? then Ok(KeyList(v.entries)) else Err(AttributeError)
  }

  /** The items `for item in v` visits: list elements, dictionary keys, or one-character
      strings; numbers, booleans and null are not iterable. */
  function Iterate(v: Value): (r: Result<seq<Value>>)
    ensures r.Ok? <==> v.JArr? || v.JObj? || v.JStr?
    ensures v.JArr? ==> r == Ok(v.items)
    ensures v.JObj? ==> |r.value| == |KeyList(v.entries)| && forall i :: 0 <= i < |r.value| ==> r.value[i].JStr?
  {
    match v
    case JArr(items) => Ok(items)
    case JObj(entries) =>
      var ks := KeyList(entries);
      Ok(seq(|ks|, i requires 0 <= i < |ks| => JStr(ks[i])))
    case JStr(s) => Ok(seq(|s|, i requires 0 <= i < |s| => JStr([s[i]])))
    case _ => Err(TypeError)
  }
}

=== FILE: metadata.dfy ===
/** Entry metadata: the five fields `fetch_metadata` reads from an RCSB entry document, with
    the defaults the scripts supply for missing parts. */
module Metadata {
  import opened Py
  import opened Json
  import Seqs

  const EntryBase := "https://data.rcsb.org/rest/v1/core/entry/"

  /** The entry document's address; the identifier is used exactly as given. */
  function EntryUrl(pdbId: string): string {
    EntryBase + pdbId
  }

  /** Whether the entry service answers the entry's address with status 200. */
  predicate Reachable(entryApi: string -> Response, pdbId: string) {
    entryApi(EntryUrl(pdbId)).status == 200
  }

  /** The entries whose document the service returns, in discovery order: the ones the
      import scripts write a row for. */
  function Kept(ids: seq<string>, entryApi: string -> Response): (kept: seq<string>)
    ensures |kept| <= |ids|
  {
    Seqs.Filter(ids, id => Reachable(entryApi, id))
  }

  /** The descriptive fields of one entry, each the Python value the script read. */
  datatype Entry = Entry(title: Value, pubmedId: Value, expMethod: Value, resolution: Value)

  const TitlePath := ["struct", "title"]
  const PubMedPath := ["rcsb_primary_citation", "pdbx_database_id_pub_med"]
  const ResolutionPath := ["rcsb_entry_info", "resolution_combined"]

  /** A member that, when present, must be an object for `.get` to work on it. */
  predicate ObjectOrAbsent(v: Option<Value>) {
    v.None? || v.value.JObj?
  }

  /** The document shapes on which the extraction raises nothing: a truthy `exptl` must be a
      list whose first element is an object, a truthy `resolution_combined` must be a list
      or a string. */
  predicate WellShaped(data: Value) {
    && data.JObj?
    && ObjectOrAbsent(Field(data, "struct"))
    && ObjectOrAbsent(Field(data, "rcsb_primary_citation"))
    && (var exptl := Field(data, "exptl");
        exptl.None? || !Truthy(exptl.value) || (exptl.value.JArr? && exptl.value.items[0].JObj?))
    && ObjectOrAbsent(Field(data, "rcsb_entry_info"))
    && (var res := Path(data, ResolutionPath);
        res.None? || !Truthy(res.value) || res.value.JArr? || res.value.JStr?)
  }

  /** `data.get(outer, {}).get(inner, default)`: raises when `data`, or the member `outer`
      where present, is not an object; otherwise yields the value at the two-key path or
      `default`. */
  function NestedGet(data: Value, outer: string, inner: string, default: Value): (r: Result<Value>)
    ensures r.Ok? <==> data.JObj? && ObjectOrAbsent(Field(data, outer))
    ensures r.Ok? ==> r.value == Path(data, [outer, inner]).GetOr(default)
  {
    PathOfTwo(data, outer, inner);
    var o :- Get(data, outer, EmptyObject);
    Get(o, inner, default)
  }

  /** The experimental method: the `method` member of the first experiment when the
      experiment list is non-empty, and the empty string when it is empty or has no such
      member. */
  function FirstMethod(exptl: Value): Result<Value> {
    if Truthy(exptl) then
      var first :- First(exptl);
      Get(first, "method", JStr(""))
    else Ok(JStr(""))
  }

  /** The resolution: the first of the combined resolutions when there are any, and `None`
      when there are none. */
  function FirstResolution(resolution: Value): Result<Value> {
    if Truthy(resolution) then First(resolution) else Ok(JNull)
  }

  /** The field extraction of `fetch_metadata`, in the script's order of evaluation. */
  function Extract(data: Value): (r: Result<Entry>)
    ensures r.Ok? <==> WellShaped(data)
    ensures r.Ok? ==> r.value.title == Path(data, TitlePath).GetOr(JStr(""))
    ensures r.Ok? ==> r.value.pubmedId == Path(data, PubMedPath).GetOr(JStr(""))
    ensures r.Ok? && Field(data, "exptl").None? ==> r.value.expMethod == JStr("")
    ensures r.Ok? && Field(data, "exptl").Some? && !Truthy(Field(data, "exptl").value) ==> r.value.expMethod == JStr("")
    ensures r.Ok? && Field(data, "exptl").Some? && Truthy(Field(data, "exptl").value) ==>
              r.value.expMethod == Field(Field(data, "exptl").value.items[0], "method").GetOr(JStr(""))
    ensures r.Ok? && Path(data, ResolutionPath).None? ==> r.value.resolution == JNull
    ensures r.Ok? && Path(data, ResolutionPath).Some? && !Truthy(Path(data, ResolutionPath).value) ==>
              r.value.resolution == JNull
    ensures r.Ok? && Path(data, ResolutionPath).Some? && Path(data, ResolutionPath).value.JArr?
              && |Path(data, ResolutionPath).value.items| > 0 ==>
              r.value.resolution == Path(data, ResolutionPath).value.items[0]
    ensures r.Ok? && Path(data, ResolutionPath).Some? && Path(data, ResolutionPath).value.JStr?
              && |Path(data, ResolutionPath).value.s| > 0 ==>
              r.value.resolution == JStr([Path(data, ResolutionPath).value.s[0]])
  {
    var title :- NestedGet(data, TitlePath[0], TitlePath[1], JStr(""));
    var pubmedId :- NestedGet(data, PubMedPath[0], PubMedPath[1], JStr(""));
    // the document is an object once the title was read, so this `.get` cannot raise
    var exptl := Get(data, "exptl", JArr([EmptyObject])).value;
    var expMethod :- FirstMethod(exptl);
    var resolution :- NestedGet(data, ResolutionPath[0], ResolutionPath[1], JArr([JNull]));
    var resolutionValue :- FirstResolution(resolution);
    Ok(Entry(title, pubmedId, expMethod, resolutionValue))
  }
}

=== FILE: py.dfy ===
/** Outcomes of evaluating Python code: an optional value, and either a value or the
    exception that the scripts let escape (every uncaught exception ends the script). */
module Py {

  /** Python's `None` versus a present value. */
  datatype Option<+T> = None | Some(value: T) {

    /** The value, or `default` when there is none: Python's `x if x is not None else default`. */
    function GetOr(default: T): T {
      match this
      case Some(v) => v
      case None => default
    }
  }

  /** The exceptions the modelled code can raise. `NotAString` is the model's own: it stands
      for a search-result identifier that is not a JSON string. */
  datatype PyError =
    | KeyError(key: string)
    | IndexError
    | TypeError
    | AttributeError
    | ValueError
    | NotAString

  /** A computation that either returns a value or raises. */
  datatype Result<+T> = Ok(value: T) | Err(error: PyError) {

    predicate IsFailure() {
      Err?
    }

    function PropagateFailure<U>(): Result<U>
      requires Err?
    {
      Err(error)
    }

    function Extract(): T
      requires Ok?
    {
      value
    }
  }
}

=== FILE: search.dfy ===
/** Discovery: the query body `fetch_released_pdb_ids` posts to the RCSB search service, and
    how it turns the service's answer into the list of entry identifiers. */
module Search {
  import opened Py
  import opened Json
  import Seqs

  const ReleaseDateAttribute := "rcsb_accession_info.initial_release_date"

  /** The condition of the search: the release date on or after `sinceDate`. */
  function Parameters(sinceDate: string): (p: Value)
    ensures Field(p, "attribute") == Some(JStr(ReleaseDateAttribute))
    ensures Field(p, "operator") == Some(JStr("greater_or_equal"))
    ensures Field(p, "value") == Some(JStr(sinceDate))
  {
    var p := JObj([("attribute", JStr(ReleaseDateAttribute)),
                   ("operator", JStr("greater_or_equal")),
                   ("value", JStr(sinceDate))]);
    LookupUnique(p.entries, "attribute", 0);
    LookupUnique(p.entries, "operator", 1);
    LookupUnique(p.entries, "value", 2);
    p
  }

  /** The text-service terminal node carrying the condition. */
  function Terminal(sinceDate: string): (t: Value)
    ensures Field(t, "parameters") == Some(Parameters(sinceDate))
  {
    var t := JObj([("type", JStr("terminal")), ("service", JStr("text")), ("parameters", Parameters(sinceDate))]);
    LookupUnique(t.entries, "parameters", 2);
    t
  }

  /** The request body `fetch_released_pdb_ids` posts: the release-date condition, entries
      as the result type, and every hit rather than the first page. */
  function Query(sinceDate: string): (q: Value)
    ensures Field(q, "query") == Some(Terminal(sinceDate))
    ensures Field(q, "return_type") == Some(JStr("entry"))
    ensures Field(q, "request_options") == Some(JObj([("return_all_hits", JBool(true))]))
  {
    var q := JObj([("query", Terminal(sinceDate)),
                   ("return_type", JStr("entry")),
                   ("request_options", JObj([("return_all_hits", JBool(true))]))]);
    LookupUnique(q.entries, "query", 0);
    LookupUnique(q.entries, "return_type", 1);
    LookupUnique(q.entries, "request_options", 2);
    q
  }

  /** A condition member of the request body, reached through the terminal node. */
  lemma ConditionPath(sinceDate: string, key: string)
    requires key in ["value", "attribute", "operator"]
    ensures Path(Query(sinceDate), ["query", "parameters", key]) == Field(Parameters(sinceDate), key)
  {
    assert ["query", "parameters", key] == ["query"] + (["parameters"] + [key]);
    PathThrough(Query(sinceDate), "query", ["parameters"] + [key]);
    PathThrough(Terminal(sinceDate), "parameters", [key]);
    assert [key] == [key] + [];
    PathThrough(Parameters(sinceDate), key, []);
  }

  /** The search asks for entries whose initial release date is on or after `sinceDate`. */
  lemma QueryCondition(sinceDate: string)
    ensures Path(Query(sinceDate), ["query", "parameters", "value"]) == Some(JStr(sinceDate))
    ensures Path(Query(sinceDate), ["query", "parameters", "attribute"]) == Some(JStr(ReleaseDateAttribute))
    ensures Path(Query(sinceDate), ["query", "parameters", "operator"]) == Some(JStr("greater_or_equal"))
  {
    ConditionPath(sinceDate, "value");
    ConditionPath(sinceDate, "attribute");
    ConditionPath(sinceDate, "operator");
  }

  /** The search returns entries and asks for every hit rather than the first page. */
  lemma QueryOptions(sinceDate: string)
    ensures Path(Query(sinceDate), ["request_options", "return_all_hits"]) == Some(JBool(true))
    ensures Path(Query(sinceDate), ["return_type"]) == Some(JStr("entry"))
  {
    var q := Query(sinceDate);
    var options := JObj([("return_all_hits", JBool(true))]);
    LookupUnique(options.entries, "return_all_hits", 0);
    assert ["request_options", "return_all_hits"] == ["request_options"] + ["return_all_hits"];
    PathThrough(q, "request_options", ["return_all_hits"]);
    assert ["return_all_hits"] == ["return_all_hits"] + [];
    PathThrough(options, "return_all_hits", []);
    assert ["return_type"] == ["return_type"] + [];
    PathThrough(q, "return_type", []);
  }

  /** The identifier a search hit carries, when it is an object with a string `identifier`. */
  function IdentifierOf(item: Value): Option<string> {
    match Field(item, "identifier")
    case Some(JStr(s)) => Some(s)
    case _ => None
  }

  /** Subscripting a hit with `identifier`: a hit that is not an object, or lacks the
      member, raises. */
  function Identifier(item: Value): (r: Result<string>)
    ensures r.Ok? <==> IdentifierOf(item).Some?
    ensures r.Ok? ==> r.value == IdentifierOf(item).value
  {
    var v :- Subscript(item, "identifier");
    if v.JStr? then Ok(v.s) else Err(NotAString)
  }

  /** The identifiers of the hits in the answer's `result_set` member, a missing member
      counting as no hits, after a successful status; an unsuccessful status yields no
      identifiers. */
  function ResultIds(resp: Response): (r: Result<seq<string>>)
    ensures resp.status != 200 ==> r == Ok([])
    ensures resp.status == 200 && !resp.body.JObj? ==> r.Err?
    ensures resp.status == 200 && resp.body.JObj? && Field(resp.body, "result_set").None? ==> r == Ok([])
    ensures resp.status == 200 && Field(resp.body, "result_set").Some? ==>
              var rs := Field(resp.body, "result_set").value;
              && (rs.JObj? || rs.JStr? ==> (r.Ok? <==> !Truthy(rs)))
              && (rs.JNull? || rs.JNum? || rs.JBool? ==> r.Err?)
              && (rs.JArr? ==> (r.Ok? <==> forall i :: 0 <= i < |rs.items| ==> IdentifierOf(rs.items[i]).Some?))
              && (rs.JArr? && r.Ok? ==>
                    |r.value| == |rs.items| && forall i :: 0 <= i < |rs.items| ==> Some(r.value[i]) == IdentifierOf(rs.items[i]))
  {
    if resp.status != 200 then Ok([])
    else
      var resultSet :- Get(resp.body, "result_set", JArr([]));
      var items :- Iterate(resultSet);
      assert (resultSet.JObj? || resultSet.JStr?) && |items| > 0 ==> Identifier(items[0]).Err?;
      Seqs.MapAll(items, Identifier)
  }

  /** The search the import scripts run for `sinceDate`, against a search service given as
      the function from request body to response: the answer to the release-date query,
      read hit by hit. */
  function Discover(sinceDate: string, searchApi: Value -> Response): (r: Result<seq<string>>)
    ensures searchApi(Query(sinceDate)).status != 200 ==> r == Ok([])
    ensures var resp := searchApi(Query(sinceDate));
            resp.status == 200 && Field(resp.body, "result_set").Some? && Field(resp.body, "result_set").value.JArr? ==>
              var hits := Field(resp.body, "result_set").value.items;
              && (r.Ok? <==> forall i :: 0 <= i < |hits| ==> IdentifierOf(hits[i]).Some?)
              && (r.Ok? ==> |r.value| == |hits| && forall i :: 0 <= i < |hits| ==> Some(r.value[i]) == IdentifierOf(hits[i]))
  {
    ResultIds(searchApi(Query(sinceDate)))
  }

  /** Hits are neither merged nor reordered: one identifier per hit, in order, so a repeated
      hit is reported at each of its positions. */
  lemma RepeatedHitsAreKept(hits: seq<Value>, i: nat, j: nat)
    requires i < j < |hits| && hits[i] == hits[j]
    requires ResultIds(Response(200, JObj([("result_set", JArr(hits))]))).Ok?
    ensures var ids := ResultIds(Response(200, JObj([("result_set", JArr(hits))]))).value;
            && |ids| == |hits|
            && (forall k :: 0 <= k < |hits| ==> Some(ids[k]) == IdentifierOf(hits[k]))
            && ids[i] == ids[j]
  {
    LookupUnique([("result_set", JArr(hits))], "result_set", 0);
  }
}

=== FILE: seqs.dfy ===
/** Sequence shapes the scripts build with list comprehensions and `for` loops: mapping,
    filtering, and running a per-item step that may raise. Every definition recurses on the
    last element, which is the order in which a loop extends its output. */
module Seqs {
  import opened Py

  function Map<A, B>(xs: seq<A>, f: A -> B): seq<B> {
    seq(|xs|, i requires 0 <= i < |xs| => f(xs[i]))
  }

  /** `[x for x in xs if p(x)]` */
  function Filter<A>(xs: seq<A>, p: A -> bool): (r: seq<A>)
    ensures |r| <= |xs|
    decreases |xs|
  {
    if |xs| == 0 then []
    else Filter(xs[..|xs| - 1], p) + (if p(xs[|xs| - 1]) then [xs[|xs| - 1]] else [])
  }

  /** Filtering keeps the order: the kept items of a concatenation are those of the first
      part followed by those of the second. */
  lemma {:induction false} FilterAppend<A>(xs: seq<A>, ys: seq<A>, p: A -> bool)
    ensures Filter(xs + ys, p) == Filter(xs, p) + Filter(ys, p)
    decreases |ys|
  {
    if |ys| == 0 {
      assert xs + ys == xs;
    } else {
      var zs := xs + ys;
      assert zs[..|zs| - 1] == xs + ys[..|ys| - 1];
      assert zs[|zs| - 1] == ys[|ys| - 1];
      FilterAppend(xs, ys[..|ys| - 1], p);
    }
  }

  /** Exactly the items that fail `p` are dropped: kept and dropped items add up to all. */
  lemma {:induction false} FilterPartition<A>(xs: seq<A>, p: A -> bool)
    ensures |Filter(xs, p)| + |Filter(xs, x => !p(x))| == |xs|
    decreases |xs|
  {
    if |xs| > 0 {
      FilterPartition(xs[..|xs| - 1], p);
    }
  }

  /** An item is kept exactly when it occurs and satisfies `p`. */
  lemma {:induction false} FilterMembership<A>(xs: seq<A>, p: A -> bool, x: A)
    ensures x in Filter(xs, p) <==> x in xs && p(x)
    decreases |xs|
  {
    if |xs| > 0 {
      var init := xs[..|xs| - 1];
      FilterMembership(init, p, x);
      assert xs == init + [xs[|xs| - 1]];
    }
  }

  /** The concatenation of what `f` yields for each item, in order. */
  function FlatMap<A, B>(xs: seq<A>, f: A -> seq<B>): seq<B>
    decreases |xs|
  {
    if |xs| == 0 then [] else FlatMap(xs[..|xs| - 1], f) + f(xs[|xs| - 1])
  }

  /** One more item appends what `f` yields for it. */
  lemma FlatMapSnoc<A, B>(xs: seq<A>, x: A, f: A -> seq<B>)
    ensures FlatMap(xs + [x], f) == FlatMap(xs, f) + f(x)
  {
    assert (xs + [x])[..|xs|] == xs;
  }

  /** Flat-mapping keeps the order of the items. */
  lemma {:induction false} FlatMapAppend<A, B>(xs: seq<A>, ys: seq<A>, f: A -> seq<B>)
    ensures FlatMap(xs + ys, f) == FlatMap(xs, f) + FlatMap(ys, f)
    decreases |ys|
  {
    if |ys| == 0 {
      assert xs + ys == xs;
    } else {
      var init, last := ys[..|ys| - 1], ys[|ys| - 1];
      assert init + [last] == ys;
      assert (xs + init) + [last] == xs + ys;
      FlatMapAppend(xs, init, f);
      FlatMapSnoc(xs + init, last, f);
      FlatMapSnoc(init, last, f);
    }
  }

  /** When every item yields just itself, flat-mapping changes nothing. */
  lemma {:induction false} FlatMapIdentity<A>(xs: seq<A>, f: A -> seq<A>)
    requires forall i :: 0 <= i < |xs| ==> f(xs[i]) == [xs[i]]
    ensures FlatMap(xs, f) == xs
    decreases |xs|
  {
    if |xs| > 0 {
      var init := xs[..|xs| - 1];
      assert FlatMap(init, f) == init by {
        FlatMapIdentity(init, f);
      }
      assert init + [xs[|xs| - 1]] == xs;
    }
  }

  /** Every value of a flat map comes from one of the items. */
  lemma {:induction false} FlatMapSource<A, B>(xs: seq<A>, f: A -> seq<B>, k: nat)
    requires k < |FlatMap(xs, f)|
    ensures exists i :: 0 <= i < |xs| && FlatMap(xs, f)[k] in f(xs[i])
    decreases |xs|
  {
    var init, last := xs[..|xs| - 1], xs[|xs| - 1];
    assert FlatMap(xs, f) == FlatMap(init, f) + f(last);
    if k < |FlatMap(init, f)| {
      FlatMapSource(init, f, k);
      var i :| 0 <= i < |init| && FlatMap(init, f)[k] in f(init[i]);
      assert init[i] == xs[i];
    } else {
      assert FlatMap(xs, f)[k] == f(last)[k - |FlatMap(init, f)|];
    }
  }

  /** When `f` yields nothing exactly for the items `p` holds of, and at most one value
      otherwise, the values it yields and the items `p` holds of add up to all items. */
  lemma {:induction false} FlatMapCount<A, B>(xs: seq<A>, f: A -> seq<B>, p: A -> bool)
    requires forall i :: 0 <= i < |xs| ==> |f(xs[i])| <= 1 && (|f(xs[i])| == 0 <==> p(xs[i]))
    ensures |FlatMap(xs, f)| + |Filter(xs, p)| == |xs|
    decreases |xs|
  {
    if |xs| > 0 {
      FlatMapCount(xs[..|xs| - 1], f, p);
      assert |f(xs[|xs| - 1])| <= 1;
    }
  }

  /** Runs a step that may raise on every item, in order, and collects the values it
      returns: the first exception ends the run. */
  function MapAll<A, B>(xs: seq<A>, f: A -> Result<B>): (r: Result<seq<B>>)
    ensures r.Ok? <==> forall i :: 0 <= i < |xs| ==> f(xs[i]).Ok?
    ensures r.Ok? ==> |r.value| == |xs| && forall i :: 0 <= i < |xs| ==> r.value[i] == f(xs[i]).value
    ensures r.Err? ==> exists i :: 0 <= i < |xs| && f(xs[i]).Err? && r.error == f(xs[i]).error
                                  && forall j :: 0 <= j < i ==> f(xs[j]).Ok?
    decreases |xs|
  {
    if |xs| == 0 then Ok([])
    else
      var front := xs[..|xs| - 1];
      assert forall i :: 0 <= i < |front| ==> front[i] == xs[i];
      var init :- MapAll(front, f);
      var last :- f(xs[|xs| - 1]);
      Ok(init + [last])
  }

  /** The collection loop of the import scripts as a function: each item's step either
      raises, yields nothing (`None`), or yields one record, which is appended. */
  function CollectAll<A, B>(xs: seq<A>, f: A -> Result<Option<B>>): (r: Result<seq<B>>)
    ensures r.Ok? <==> forall i :: 0 <= i < |xs| ==> f(xs[i]).Ok?
    ensures r.Ok? ==> |r.value| <= |xs|
    ensures r.Ok? ==> forall k :: 0 <= k < |r.value| ==> exists i :: 0 <= i < |xs| && f(xs[i]) == Ok(Some(r.value[k]))
    ensures r.Err? ==> exists i :: 0 <= i < |xs| && f(xs[i]).Err? && r.error == f(xs[i]).error
                                  && forall j :: 0 <= j < i ==> f(xs[j]).Ok?
    decreases |xs|
  {
    if |xs| == 0 then Ok([])
    else
      var front := xs[..|xs| - 1];
      assert forall i :: 0 <= i < |front| ==> front[i] == xs[i];
      var init :- CollectAll(front, f);
      var last :- f(xs[|xs| - 1]);
      Ok(init + (if last.Some? then [last.value] else []))
  }

  /** Once a prefix has raised, nothing after it is looked at. */
  lemma {:induction false} CollectAllStopsAtError<A, B>(xs: seq<A>, n: nat, f: A -> Result<Option<B>>)
    requires n <= |xs|
    requires CollectAll(xs[..n], f).Err?
    ensures CollectAll(xs, f) == CollectAll(xs[..n], f)
    decreases |xs|
  {
    if n == |xs| {
      assert xs[..n] == xs;
    } else {
      var front := xs[..|xs| - 1];
      assert front[..n] == xs[..n];
      CollectAllStopsAtError(front, n, f);
    }
  }

  /** When every record names the item it came from (`key`), and `p` tells which items yield
      a record, the collected records name exactly the items satisfying `p`, in order: the
      output is an order-preserving filter of the input. */
  lemma {:induction false} CollectAllKeys<A, B>(xs: seq<A>, f: A -> Result<Option<B>>, key: B -> A, p: A -> bool)
    requires forall x :: f(x).Ok? ==> (f(x).value.Some? <==> p(x))
    requires forall x :: f(x).Ok? && f(x).value.Some? ==> key(f(x).value.value) == x
    requires CollectAll(xs, f).Ok?
    ensures Map(CollectAll(xs, f).value, key) == Filter(xs, p)
    decreases |xs|
  {
    if |xs| > 0 {
      var init := xs[..|xs| - 1];
      CollectAllKeys(init, f, key, p);
      var a := CollectAll(init, f).value;
      var last := f(xs[|xs| - 1]).value;
      var tail := if last.Some? then [last.value] else [];
      assert Map(a + tail, key) == Map(a, key) + Map(tail, key);
    }
  }

  /** The collection loop itself: a `for` loop appending each yielded record. */
  method Collect<A, B>(xs: seq<A>, f: A -> Result<Option<B>>) returns (r: Result<seq<B>>)
    ensures r == CollectAll(xs, f)
    ensures r.Ok? ==> |r.value| <= |xs|
  {
    var acc: seq<B> := [];
    var i := 0;
    while i < |xs|
      invariant 0 <= i <= |xs|
      invariant CollectAll(xs[..i], f) == Ok(acc)
    {
      assert xs[..i + 1][..i] == xs[..i];
      var step := f(xs[i]);
      if step.Err? {
        assert CollectAll(xs[..i + 1], f) == Err(step.error);
        CollectAllStopsAtError(xs, i + 1, f);
        return Err(step.error);
      }
      var next := acc + (if step.value.Some? then [step.value.value] else []);
      assert CollectAll(xs[..i + 1], f) == Ok(next);
      acc := next;
      i := i + 1;
    }
    assert xs[..|xs|] == xs;
    r := Ok(acc);
  }
}

=== FILE: table.dfy ===
/** What the scripts hand to the `csv` module: a header row and data rows of Python values,
    written in one go over a fresh file. Quoting, line endings and encoding are the
    module's business and are not part of this model. */
module Table {
  import opened Py
  import opened Json
  import Seqs

  type Row = seq<Value>
  type Table = seq<Row>

  /** What a run leaves behind: no file at all, or one file holding `table`. */
  datatype Outcome = NothingWritten | Written(table: Table)

  function HeaderRow(fieldnames: seq<string>): Row {
    Seqs.Map(fieldnames, (f: string) => JStr(f))
  }

  /** `csv.DictWriter(f, fieldnames).writerow(d)`: a key outside `fieldnames` raises
      `ValueError`; a field missing from `d` is written as the empty string. */
  function DictRow(fieldnames: seq<string>, d: map<string, Value>): (r: Result<Row>)
    ensures r.Ok? <==> forall k :: k in d ==> k in fieldnames
    ensures r.Ok? ==> |r.value| == |fieldnames|
    ensures r.Ok? ==> forall j :: 0 <= j < |fieldnames| && fieldnames[j] in d ==> r.value[j] == d[fieldnames[j]]
    ensures r.Ok? ==> forall j :: 0 <= j < |fieldnames| && fieldnames[j] !in d ==> r.value[j] == JStr("")
  {
    if forall k :: k in d ==> k in fieldnames then
      Ok(seq(|fieldnames|, j requires 0 <= j < |fieldnames| =>
               if fieldnames[j] in d then d[fieldnames[j]] else JStr("")))
    else Err(ValueError)
  }

  /** `save_to_csv`: the header, then one row per record, in list order. */
  function WriteDicts(fieldnames: seq<string>, dicts: seq<map<string, Value>>): (r: Result<Table>)
    ensures r.Ok? <==> forall i :: 0 <= i < |dicts| ==> forall k :: k in dicts[i] ==> k in fieldnames
    ensures r.Ok? ==> |r.value| == |dicts| + 1 && r.value[0] == HeaderRow(fieldnames)
    ensures r.Ok? ==> forall i, j :: 0 <= i < |dicts| && 0 <= j < |fieldnames| && fieldnames[j] in dicts[i] ==>
                        |r.value[i + 1]| == |fieldnames| && r.value[i + 1][j] == dicts[i][fieldnames[j]]
  {
    var rows :- Seqs.MapAll(dicts, d => DictRow(fieldnames, d));
    Ok([HeaderRow(fieldnames)] + rows)
  }
}

=== FILE: text.dfy ===
/** The string operations the scripts use: `str.strip()`, `str.lower()`, `str.upper()`,
    `sep.join(...)`, and the line splitting a text-mode file performs; all over ASCII. */
module Text {

  /** `c.isspace()` for ASCII: tab, line feed, vertical tab, form feed, carriage return,
      the four separator controls 0x1C-0x1F, and space. */
  predicate IsSpace(c: char) {
    c == ' ' || ('\t' <= c <= '\r') || (28 <= c as int <= 31)
  }

  /** A line break under universal-newline reading. */
  predicate IsLineBreak(c: char) {
    c == '\n' || c == '\r'
  }

  /** The first position at or after `i` that does not hold whitespace, or `|s|`. */
  function SkipSpaces(s: string, i: nat): (k: nat)
    requires i <= |s|
    ensures i <= k <= |s|
    ensures forall j :: i <= j < k ==> IsSpace(s[j])
    ensures k == |s| || !IsSpace(s[k])
    decreases |s| - i
  {
    if i < |s| && IsSpace(s[i]) then SkipSpaces(s, i + 1) else i
  }

  /** The position just past the last non-whitespace character before `j`, or 0. */
  function BackSpaces(s: string, j: nat): (k: nat)
    requires j <= |s|
    ensures k <= j
    ensures forall i :: k <= i < j ==> IsSpace(s[i])
    ensures k == 0 || !IsSpace(s[k - 1])
    decreases j
  {
    if j > 0 && IsSpace(s[j - 1]) then BackSpaces(s, j - 1) else j
  }

  /** `s.lstrip()` */
  function TrimStart(s: string): (r: string)
    ensures |r| <= |s| && r == s[|s| - |r|..]
    ensures forall i :: 0 <= i < |s| - |r| ==> IsSpace(s[i])
    ensures r == [] || !IsSpace(r[0])
  {
    s[SkipSpaces(s, 0)..]
  }

  /** `s.rstrip()` */
  function TrimEnd(s: string): (r: string)
    ensures |r| <= |s| && r == s[..|r|]
    ensures forall i :: |r| <= i < |s| ==> IsSpace(s[i])
    ensures r == [] || !IsSpace(r[|r| - 1])
  {
    s[..BackSpaces(s, |s|)]
  }

  /** `s.strip()` */
  function Strip(s: string): (r: string)
    ensures |r| <= |s|
    ensures r == [] || (!IsSpace(r[0]) && !IsSpace(r[|r| - 1]))
    ensures r == [] <==> forall i :: 0 <= i < |s| ==> IsSpace(s[i])
  {
    var t := TrimStart(s);
    assert t == [] || !IsSpace(t[0]);
    var r := TrimEnd(t);
    assert r == [] <==> forall i :: 0 <= i < |t| ==> IsSpace(t[i]);
    r
  }

  /** `Strip` removes exactly the leading and trailing whitespace: whenever `s[i..j]` is
      flanked by whitespace only and neither starts nor ends with whitespace, it is `Strip(s)`. */
  lemma StripIsTrimmedSlice(s: string, i: nat, j: nat)
    requires i <= j <= |s|
    requires forall k :: 0 <= k < i ==> IsSpace(s[k])
    requires forall k :: j <= k < |s| ==> IsSpace(s[k])
    requires i == j || (!IsSpace(s[i]) && !IsSpace(s[j - 1]))
    ensures Strip(s) == s[i..j]
  {
    var t := TrimStart(s);
    if i == j {
      assert forall k :: 0 <= k < |s| ==> IsSpace(s[k]) by {
        forall k | 0 <= k < |s| ensures IsSpace(s[k]) {
          if k >= j { } else { assert k < i; }
        }
      }
    } else {
      assert t == s[i..];
    }
  }

  /** Stripping twice changes nothing more. */
  lemma StripIdempotent(s: string)
    ensures Strip(Strip(s)) == Strip(s)
  {
    var r := Strip(s);
    StripIsTrimmedSlice(r, 0, |r|);
  }

  function LowerChar(c: char): char {
    if 'A' <= c <= 'Z' then (c as int + 32) as char else c
  }

  function UpperChar(c: char): char {
    if 'a' <= c <= 'z' then (c as int - 32) as char else c
  }

  /** `s.lower()`: each upper-case letter becomes the lower-case letter it is the capital of,
      and every other character is kept. */
  function Lower(s: string): (r: string)
    ensures |r| == |s|
    ensures forall i :: 0 <= i < |s| ==> !('A' <= r[i] <= 'Z')
    ensures forall i :: 0 <= i < |s| && 'A' <= s[i] <= 'Z' ==> 'a' <= r[i] <= 'z' && UpperChar(r[i]) == s[i]
    ensures forall i :: 0 <= i < |s| && !('A' <= s[i] <= 'Z') ==> r[i] == s[i]
  {
    seq(|s|, i requires 0 <= i < |s| => LowerChar(s[i]))
  }

  /** `s.upper()`: each lower-case letter becomes its capital, and every other character is
      kept. */
  function Upper(s: string): (r: string)
    ensures |r| == |s|
    ensures forall i :: 0 <= i < |s| ==> !('a' <= r[i] <= 'z')
    ensures forall i :: 0 <= i < |s| && 'a' <= s[i] <= 'z' ==> 'A' <= r[i] <= 'Z' && LowerChar(r[i]) == s[i]
    ensures forall i :: 0 <= i < |s| && !('a' <= s[i] <= 'z') ==> r[i] == s[i]
  {
    seq(|s|, i requires 0 <= i < |s| => UpperChar(s[i]))
  }

  /** Upper-casing loses nothing that lower-casing keeps: an identifier written out in upper
      case folds to the same lower-case key as the identifier it came from. */
  lemma LowerOfUpper(s: string)
    ensures Lower(Upper(s)) == Lower(s)
  {
    forall i | 0 <= i < |s| ensures Lower(Upper(s))[i] == Lower(s)[i] {
      var c := s[i];
      if 'a' <= c <= 'z' {
        assert Upper(s)[i] == (c as int - 32) as char;
      }
    }
  }

  /** `sep.join(xs)`: no elements give the empty string and one element gives itself;
      otherwise the text starts with the first element, followed by the separator. */
  function Join(sep: string, xs: seq<string>): (r: string)
    ensures |xs| == 0 ==> r == ""
    ensures |xs| == 1 ==> r == xs[0]
    ensures |xs| > 0 ==> xs[0] <= r
    ensures |xs| > 1 ==> xs[0] + sep <= r
    ensures |xs| > 0 ==> |r| >= |xs[0]| + (|xs| - 1) * |sep|
    decreases |xs|
  {
    if |xs| == 0 then ""
    else if |xs| == 1 then xs[0]
    else xs[0] + sep + Join(sep, xs[1..])
  }

  /** One more element appends the separator and that element: together with the one-element
      case this determines every joined text. */
  lemma {:induction false} JoinSnoc(sep: string, xs: seq<string>, x: string)
    requires |xs| > 0
    ensures Join(sep, xs + [x]) == Join(sep, xs) + sep + x
    decreases |xs|
  {
    var ys := xs + [x];
    assert ys[0] == xs[0];
    if |xs| == 1 {
      assert ys[1..] == [x];
    } else {
      assert ys[1..] == xs[1..] + [x];
      JoinSnoc(sep, xs[1..], x);
    }
  }

  /** Splits `s` at every character `c` (the pieces never contain `c`). */
  function SplitAt(s: string, c: char): (parts: seq<string>)
    ensures |parts| >= 1
    ensures forall i :: 0 <= i < |parts| ==> c !in parts[i]
    decreases |s|
  {
    if |s| == 0 then [""]
    else
      var rest := SplitAt(s[1..], c);
      if s[0] == c then [""] + rest
      else
        var head := [s[0]] + rest[0];
        assert c !in head;
        [head] + rest[1..]
  }

  /** Cuts a file's text at every line break, removing the breaks. This differs from the
      lines a text-mode file iterates over only by empty pieces: one after a `\r\n` pair's
      `\r`, one after a final line break, and the single piece of an empty text. A
      blank-line filter drops each of them. */
  function SplitLines(text: string): (lines: seq<string>)
    ensures |lines| >= 1
    ensures forall i, k :: 0 <= i < |lines| && 0 <= k < |lines[i]| ==> !IsLineBreak(lines[i][k])
    decreases |text|
  {
    if |text| == 0 then [""]
    else
      var rest := SplitLines(text[1..]);
      if IsLineBreak(text[0]) then [""] + rest
      else
        var head := [text[0]] + rest[0];
        assert forall k :: 0 <= k < |head| ==> !IsLineBreak(head[k]) by {
          forall k | 0 <= k < |head| ensures !IsLineBreak(head[k]) {
            if k > 0 { assert head[k] == rest[0][k - 1]; }
          }
        }
        [head] + rest[1..]
  }

  /** A prefix free of line breaks stays glued to the first line of what follows it. */
  lemma {:induction false} SplitLinesPrefix(a: string, b: string)
    requires forall k :: 0 <= k < |a| ==> !IsLineBreak(a[k])
    ensures SplitLines(a + b) == [a + SplitLines(b)[0]] + SplitLines(b)[1..]
    decreases |a|
  {
    if |a| > 0 {
      var r, t := SplitLines(b), a[1..] + b;
      assert a + b == [a[0]] + t;
      assert SplitLines(t) == [a[1..] + r[0]] + r[1..] by {
        SplitLinesPrefix(a[1..], b);
      }
      assert ([a[0]] + t)[1..] == t;
      assert [a[0]] + (a[1..] + r[0]) == a + r[0];
    } else {
      assert a + b == b && a + SplitLines(b)[0] == SplitLines(b)[0];
      assert SplitLines(b) == [SplitLines(b)[0]] + SplitLines(b)[1..];
    }
  }

  /** A text without line breaks is one piece. */
  lemma SplitLinesNoBreak(a: string)
    requires forall k :: 0 <= k < |a| ==> !IsLineBreak(a[k])
    ensures SplitLines(a) == [a]
  {
    SplitLinesPrefix(a, "");
    assert a + "" == a;
  }

  /** The text up to the first line break, either `\n` or `\r`, is the first piece, and the
      rest of the text after that break gives the remaining pieces. With `SplitLinesNoBreak`
      this fixes the pieces of every text. */
  lemma SplitLinesAtBreak(a: string, c: char, b: string)
    requires forall k :: 0 <= k < |a| ==> !IsLineBreak(a[k])
    requires IsLineBreak(c)
    ensures SplitLines(a + [c] + b) == [a] + SplitLines(b)
  {
    var t := [c] + b;
    assert a + [c] + b == a + t;
    assert t[1..] == b;
    assert SplitLines(t) == [""] + SplitLines(b);
    SplitLinesPrefix(a, t);
    assert a + "" == a;
  }

  /** Lines joined with line feeds split back into the same lines. */
  lemma {:induction false} SplitLinesOfJoin(xs: seq<string>)
    requires |xs| > 0
    requires forall i, k :: 0 <= i < |xs| && 0 <= k < |xs[i]| ==> !IsLineBreak(xs[i][k])
    ensures SplitLines(Join("\n", xs)) == xs
    decreases |xs|
  {
    if |xs| == 1 {
      SplitLinesPrefix(xs[0], "");
      assert xs[0] + "" == xs[0];
    } else {
      var rest := Join("\n", xs[1..]);
      SplitLinesOfJoin(xs[1..]);
      assert Join("\n", xs) == xs[0] + ("\n" + rest);
      SplitLinesPrefix(xs[0], "\n" + rest);
      assert ("\n" + rest)[1..] == rest;
      assert SplitLines("\n" + rest) == [""] + xs[1..];
      assert xs[0] + "" == xs[0];
    }
  }

  /** A prefix free of `c` stays glued to the first piece of what follows it. */
  lemma {:induction false} SplitAtPrefix(a: string, b: string, c: char)
    requires c !in a
    ensures SplitAt(a + b, c) == [a + SplitAt(b, c)[0]] + SplitAt(b, c)[1..]
    decreases |a|
  {
    if |a| > 0 {
      var r, t := SplitAt(b, c), a[1..] + b;
      assert a + b == [a[0]] + t;
      assert SplitAt(t, c) == [a[1..] + r[0]] + r[1..] by {
        SplitAtPrefix(a[1..], b, c);
      }
      assert ([a[0]] + t)[1..] == t;
      assert [a[0]] + (a[1..] + r[0]) == a + r[0];
    } else {
      assert a + b == b;
      var parts := SplitAt(b, c);
      assert parts == [parts[0]] + parts[1..];
      assert a + parts[0] == parts[0];
    }
  }

  /** A separator `c` followed by a `c`-free `tail` starts a new piece that begins with `tail`. */
  lemma SplitAtSeparator(c: char, tail: string, rest: string)
    requires c !in tail
    ensures SplitAt([c] + tail + rest, c) == [""] + [tail + SplitAt(rest, c)[0]] + SplitAt(rest, c)[1..]
  {
    assert ([c] + tail + rest)[1..] == tail + rest;
    SplitAtPrefix(tail, rest, c);
  }

  /** Each element with `tail` in front of it. */
  function Behind(tail: string, xs: seq<string>): (r: seq<string>)
    ensures |r| == |xs| && forall i :: 0 <= i < |xs| ==> r[i] == tail + xs[i]
  {
    seq(|xs|, i requires 0 <= i < |xs| => tail + xs[i])
  }

  /** One more element in front of a joined list becomes one more piece. */
  lemma SplitAtJoinStep(x: string, c: char, tail: string, rest: string)
    requires c !in x && c !in tail
    ensures SplitAt(x + ([c] + tail + rest), c) == [x] + [tail + SplitAt(rest, c)[0]] + SplitAt(rest, c)[1..]
  {
    var r := SplitAt(rest, c);
    var after := [c] + tail + rest;
    SplitAtSeparator(c, tail, rest);
    var pieces := SplitAt(after, c);
    assert pieces[0] == "" && pieces[1..] == [tail + r[0]] + r[1..];
    SplitAtPrefix(x, after, c);
    assert x + pieces[0] == x;
  }

  /** Joining with a separator that starts with `c` and has no other `c`, then splitting at
      `c`, gives back the first element and every later element behind the separator's tail. */
  lemma {:induction false} SplitAtJoin(xs: seq<string>, c: char, tail: string)
    requires |xs| > 0
    requires c !in tail
    requires forall i :: 0 <= i < |xs| ==> c !in xs[i]
    ensures SplitAt(Join([c] + tail, xs), c) == [xs[0]] + Behind(tail, xs[1..])
    decreases |xs|
  {
    var sep := [c] + tail;
    if |xs| == 1 {
      SplitAtPrefix(xs[0], "", c);
      assert xs[0] + "" == xs[0];
    } else {
      var rest := Join(sep, xs[1..]);
      var later := Behind(tail, xs[2..]);
      assert Join(sep, xs) == xs[0] + ([c] + tail + rest);
      assert SplitAt(rest, c) == [xs[1]] + later by {
        SplitAtJoin(xs[1..], c, tail);
        assert xs[1..][1..] == xs[2..];
      }
      assert SplitAt(xs[0] + ([c] + tail + rest), c) == [xs[0]] + ([tail + xs[1]] + later) by {
        SplitAtJoinStep(xs[0], c, tail, rest);
      }
      assert Behind(tail, xs[1..]) == [tail + xs[1]] + later;
    }
  }

  /** `s` without its prefix `p`; `s` itself when it does not start with `p`. */
  function DropPrefix(s: string, p: string): (r: string)
    ensures p <= s ==> p + r == s
    ensures !(p <= s) ==> r == s
  {
    if p <= s then s[|p|..] else s
  }

  /** Reads a `sep.join(xs)` cell back into its elements; the empty cell holds no element. A
      piece after the first loses the rest of the separator only when it starts with it. */
  function ParseJoined(s: string, sep: string): seq<string>
    requires |sep| > 0
  {
    if s == "" then []
    else
      var parts := SplitAt(s, sep[0]);
      [parts[0]] + seq(|parts| - 1, i requires 0 <= i < |parts| - 1 => DropPrefix(parts[i + 1], sep[1..]))
  }

  /** `ParseJoined` inverts `Join` when the separator's first character occurs nowhere else
      and the list is not the single empty string (which joins to the same text as no list). */
  lemma JoinRoundTrip(xs: seq<string>, sep: string)
    requires |sep| > 0 && sep[0] !in sep[1..]
    requires forall i :: 0 <= i < |xs| ==> sep[0] !in xs[i]
    requires xs != [""]
    ensures ParseJoined(Join(sep, xs), sep) == xs
  {
    if |xs| > 0 {
      var s := Join(sep, xs);
      assert sep == [sep[0]] + sep[1..];
      if |xs| == 1 {
        assert s == xs[0];
        assert xs[0] != "";
      } else {
        assert s == xs[0] + sep + Join(sep, xs[1..]);
        assert |s| >= |sep|;
      }
      SplitAtJoin(xs, sep[0], sep[1..]);
      var parts := SplitAt(s, sep[0]);
      var back := ParseJoined(s, sep);
      assert |back| == |xs|;
      forall i | 0 <= i < |xs| ensures back[i] == xs[i] {
        if i > 0 {
          assert parts[i] == sep[1..] + xs[i];
          assert sep[1..] <= parts[i];
          assert DropPrefix(parts[i], sep[1..]) == xs[i];
        }
      }
    }
  }
}

=== FILE: uniprot.dfy ===
/** Cross-references: how `get_uniprot_ids_from_pdb` reads the PDBe SIFTS mapping of one entry,
    and the two ways the scripts write the resulting accession list into a cell. */
module UniProt {
  import opened Py
  import opened Json
  import opened Text

  const MappingBase := "https://www.ebi.ac.uk/pdbe/api/mappings/uniprot/"

  /** The mapping document's address: the identifier folded to lower case. */
  function MappingUrl(pdbId: string): string {
    MappingBase + Lower(pdbId)
  }

  /** The UniProt accessions mapped to `pdbId`, against a mapping service given as the
      function from address to response. The lower-cased identifier is both the last path
      segment of the address and the key looked up in the answer. The accessions are the keys
      of the entry's `UniProt` object, in their order of first appearance. A list or a string
      in place of an object is searched by `in` and then fails at the subscript when the
      search succeeds; null, booleans and numbers fail at `in`. */
  function Lookup(pdbId: string, mappingApi: string -> Response): (r: Result<seq<string>>)
    ensures var key := Lower(pdbId);
            var resp := mappingApi(MappingUrl(pdbId));
            && (resp.status != 200 ==> r == Ok([]))
            && (resp.status == 200 && (resp.body.JNull? || resp.body.JBool? || resp.body.JNum?) ==> r.Err?)
            && (resp.status == 200 && resp.body.JArr? ==> (r.Ok? <==> JStr(key) !in resp.body.items))
            && (resp.status == 200 && resp.body.JStr? ==> (r.Ok? <==> !IsSubstring(key, resp.body.s)))
            && (resp.status == 200 && !resp.body.JObj? && r.Ok? ==> r.value == [])
            && (resp.status == 200 && resp.body.JObj? && Field(resp.body, key).None? ==> r == Ok([]))
    ensures var key := Lower(pdbId);
            var resp := mappingApi(MappingUrl(pdbId));
            resp.status == 200 && Field(resp.body, key).Some? ==>
              var entry := Field(resp.body, key).value;
              && (entry.JNull? || entry.JBool? || entry.JNum? ==> r.Err?)
              && (entry.JArr? ==> (r.Ok? <==> JStr("UniProt") !in entry.items))
              && (entry.JStr? ==> (r.Ok? <==> !IsSubstring("UniProt", entry.s)))
              && (!entry.JObj? && r.Ok? ==> r.value == [])
              && (entry.JObj? && Field(entry, "UniProt").None? ==> r == Ok([]))
    ensures var key := Lower(pdbId);
            var resp := mappingApi(MappingUrl(pdbId));
            resp.status == 200 && Path(resp.body, [key, "UniProt"]).Some? ==>
              var uniprot := Path(resp.body, [key, "UniProt"]).value;
              && (r.Ok? <==> uniprot.JObj?)
              && (r.Ok? ==> forall acc :: acc in r.value <==> Field(uniprot, acc).Some?)
              && (r.Ok? ==> forall i, j :: 0 <= i < j < |r.value| ==> Before(uniprot.entries, r.value[i], r.value[j]))
    ensures r.Ok? ==> forall i, j :: 0 <= i < j < |r.value| ==> r.value[i] != r.value[j]
  {
    var key := Lower(pdbId);
    var resp := mappingApi(MappingUrl(pdbId));
    PathOfTwo(resp.body, key, "UniProt");
    if resp.status != 200 then Ok([])
    else
      var data := resp.body;
      var hasKey :- Contains(data, key);
      if !hasKey then Ok([])
      else
        var entry :- Subscript(data, key);
        var hasUniProt :- Contains(entry, "UniProt");
        if !hasUniProt then Ok([])
        else
          var uniprot :- Subscript(entry, "UniProt");
          Keys(uniprot)
  }

  /** Identifiers that differ only in letter case map to the same accessions. */
  lemma LookupIgnoresCase(a: string, b: string, mappingApi: string -> Response)
    requires Lower(a) == Lower(b)
    ensures Lookup(a, mappingApi) == Lookup(b, mappingApi)
  {
  }

  /** The `UniProt_IDs` cell of the metadata import: comma-and-space separated, empty when
      there is no accession. */
  function ImportCell(accessions: seq<string>): (cell: string)
    ensures cell == "" <==> accessions == [] || accessions == [""]
    ensures |accessions| == 1 ==> cell == accessions[0]
  {
    if |accessions| > 0 then Join(", ", accessions) else ""
  }

  /** Each further accession is written after a comma and a space: with the one-accession
      case this fixes the whole cell. */
  lemma ImportCellSnoc(accessions: seq<string>, x: string)
    requires |accessions| > 0
    ensures ImportCell(accessions + [x]) == ImportCell(accessions) + ", " + x
  {
    JoinSnoc(", ", accessions, x);
  }

  /** The `UniProt_IDs` cell of the mapping script: comma separated, `N/A` when there is no
      accession, which an accession list consisting of `N/A` alone cannot be told apart from. */
  function MappingCell(accessions: seq<string>): (cell: string)
    ensures cell == "N/A" <==> accessions == [] || accessions == ["N/A"]
    ensures |accessions| == 1 ==> cell == accessions[0]
  {
    if |accessions| > 0 then
      var cell := Join(",", accessions);
      assert |accessions| > 1 ==> cell[|accessions[0]|] == ',';
      cell
    else "N/A"
  }

  /** Each further accession is written after a comma. */
  lemma MappingCellSnoc(accessions: seq<string>, x: string)
    requires |accessions| > 0
    ensures MappingCell(accessions + [x]) == MappingCell(accessions) + "," + x
  {
    JoinSnoc(",", accessions, x);
  }

  /** Reads an `ImportCell` back. */
  function ParseImportCell(cell: string): seq<string> {
    ParseJoined(cell, ", ")
  }

  /** Reads a `MappingCell` back. */
  function ParseMappingCell(cell: string): seq<string> {
    if cell == "N/A" then [] else ParseJoined(cell, ",")
  }

  /** The import cell loses nothing: accessions without commas are read back exactly. */
  lemma ImportCellRoundTrip(accessions: seq<string>)
    requires forall i :: 0 <= i < |accessions| ==> ',' !in accessions[i]
    requires accessions != [""]
    ensures ParseImportCell(ImportCell(accessions)) == accessions
  {
    if |accessions| > 0 {
      JoinRoundTrip(accessions, ", ");
    }
  }

  /** The mapping cell loses nothing either, unless the only accession is literally `N/A`,
      which the sentinel would swallow. */
  lemma MappingCellRoundTrip(accessions: seq<string>)
    requires forall i :: 0 <= i < |accessions| ==> ',' !in accessions[i]
    requires accessions != [""] && accessions != ["N/A"]
    ensures ParseMappingCell(MappingCell(accessions)) == accessions
  {
    if |accessions| > 0 {
      JoinRoundTrip(accessions, ",");
      if |accessions| > 1 {
        assert ',' in MappingCell(accessions);
      }
    }
  }
}

=== FILE: uniprot_mapping.dfy ===
/** The mapping script: read entry identifiers from a text file, one per line, and write
    each one's UniProt accessions next to it. */
module UniProtMapping {
  import opened Py
  import opened Json
  import opened Text
  import opened Table
  import Seqs
  import UniProt

  const Header: seq<string> := ["PDB_ID", "UniProt_IDs"]

  /** The identifier one line holds, if any: the stripped line unless that is empty. */
  function LineId(line: string): seq<string> {
    var clean := Strip(line);
    if |clean| > 0 then [clean] else []
  }

  /** The identifiers a list of lines holds: every line stripped, blank ones left out. */
  function IdLines(lines: seq<string>): seq<string> {
    Seqs.FlatMap(lines, LineId)
  }

  /** What a line contributes is its stripped form, which is non-empty and already clean. */
  lemma LineIdClean(line: string, id: string)
    requires id in LineId(line)
    ensures id == Strip(line) && id != "" && Strip(id) == id
  {
    StripIdempotent(line);
  }

  /** `read_pdb_ids_from_file`, given the file's lines. */
  method ReadPdbIds(lines: seq<string>) returns (ids: seq<string>)
    ensures ids == IdLines(lines)
    ensures forall k :: 0 <= k < |ids| ==> ids[k] != "" && Strip(ids[k]) == ids[k]
    ensures forall k :: 0 <= k < |ids| ==> exists i :: 0 <= i < |lines| && ids[k] == Strip(lines[i])
  {
    ids := [];
    for i := 0 to |lines|
      invariant ids == IdLines(lines[..i])
    {
      assert lines[..i + 1] == lines[..i] + [lines[i]];
      Seqs.FlatMapSnoc(lines[..i], lines[i], LineId);
      var clean := Strip(lines[i]);
      if clean != "" {
        ids := ids + [clean];
      }
    }
    assert lines[..|lines|] == lines;
    forall k | 0 <= k < |ids|
      ensures ids[k] != "" && Strip(ids[k]) == ids[k]
      ensures exists i :: 0 <= i < |lines| && ids[k] == Strip(lines[i])
    {
      Seqs.FlatMapSource(lines, LineId, k);
      var i :| 0 <= i < |lines| && ids[k] in LineId(lines[i]);
      LineIdClean(lines[i], ids[k]);
    }
  }

  /** Reading keeps the file's order: the identifiers of two consecutive stretches of lines
      are those of the first stretch followed by those of the second. */
  lemma ReadKeepsOrder(a: seq<string>, b: seq<string>)
    ensures IdLines(a + b) == IdLines(a) + IdLines(b)
  {
    Seqs.FlatMapAppend(a, b, LineId);
  }

  /** Lines whose stripped form is empty. */
  predicate IsBlank(line: string) {
    Strip(line) == ""
  }

  /** Reading drops exactly the blank lines: identifiers and blank lines add up to all lines. */
  lemma {:induction false} ReadDropsOnlyBlankLines(lines: seq<string>)
    ensures |IdLines(lines)| + |Seqs.Filter(lines, IsBlank)| == |lines|
  {
    Seqs.FlatMapCount(lines, LineId, IsBlank);
  }

  /** A blank line, wherever it stands, adds no identifier. */
  lemma BlankLineSkipped(before: seq<string>, blank: string, after: seq<string>)
    requires Strip(blank) == ""
    ensures IdLines(before + [blank] + after) == IdLines(before + after)
  {
    ReadKeepsOrder(before + [blank], after);
    ReadKeepsOrder(before, after);
    assert IdLines(before + [blank]) == IdLines(before) by {
      Seqs.FlatMapSnoc(before, blank, LineId);
      assert LineId(blank) == [];
    }
  }

  /** A line ended by `\r\n`, as `csv.writer` ends its rows, gives the same identifiers as
      the line ended by a single break: the empty piece between `\r` and `\n` adds none. */
  lemma CrLfReadsAsOneLine(a: string, b: string)
    requires forall k :: 0 <= k < |a| ==> !IsLineBreak(a[k])
    ensures IdLines(SplitLines(a + "\r\n" + b)) == IdLines([a] + SplitLines(b))
  {
    assert a + "\r\n" + b == a + ['\r'] + ("\n" + b);
    SplitLinesAtBreak(a, '\r', "\n" + b);
    assert "\n" + b == "" + ['\n'] + b;
    SplitLinesAtBreak("", '\n', b);
    assert [a] + ([""] + SplitLines(b)) == [a] + [""] + SplitLines(b);
    BlankLineSkipped([a], "", SplitLines(b));
  }

  /** Identifiers that are already clean survive reading unchanged. */
  lemma CleanIdsRead(ids: seq<string>)
    requires forall k :: 0 <= k < |ids| ==> ids[k] != "" && Strip(ids[k]) == ids[k]
    ensures IdLines(ids) == ids
  {
    forall k | 0 <= k < |ids| ensures LineId(ids[k]) == [ids[k]] {
      assert |Strip(ids[k])| > 0;
    }
    Seqs.FlatMapIdentity(ids, LineId);
  }

  /** A file written one clean identifier per line reads back as the same identifiers. */
  lemma IdFileRoundTrip(ids: seq<string>)
    requires forall k :: 0 <= k < |ids| ==> ids[k] != "" && Strip(ids[k]) == ids[k]
    requires forall k, j :: 0 <= k < |ids| && 0 <= j < |ids[k]| ==> !IsLineBreak(ids[k][j])
    ensures IdLines(SplitLines(Join("\n", ids))) == ids
  {
    if |ids| == 0 {
      assert IdLines([""]) == [] by {
        assert [""][..0] == [];
      }
    } else {
      SplitLinesOfJoin(ids);
      CleanIdsRead(ids);
    }
  }

  /** One output row: the identifier in upper case and its accession cell. The row is written
      exactly when the lookup succeeds; its identifier names the same entry up to letter case,
      and its cell is `N/A` exactly when no accession (or only `N/A`) was found. */
  function MappingRow(pdbId: string, mappingApi: string -> Response): (r: Result<Row>)
    ensures r.Ok? <==> UniProt.Lookup(pdbId, mappingApi).Ok?
    ensures r.Ok? ==> |r.value| == |Header| && r.value[0].JStr? && r.value[1].JStr?
    ensures r.Ok? ==> r.value[0].s == Upper(pdbId) && Lower(r.value[0].s) == Lower(pdbId)
    ensures r.Ok? ==> r.value[1].s == UniProt.MappingCell(UniProt.Lookup(pdbId, mappingApi).value)
    ensures r.Ok? ==> (r.value[1].s == "N/A" <==> UniProt.Lookup(pdbId, mappingApi).value in [[], ["N/A"]])
  {
    LowerOfUpper(pdbId);
    var accessions :- UniProt.Lookup(pdbId, mappingApi);
    Ok([JStr(Upper(pdbId)), JStr(UniProt.MappingCell(accessions))])
  }

  /** `process_pdb_ids`: the header, then exactly one row per identifier, in order; no
      identifier is ever left out. */
  function ProcessPdbIds(ids: seq<string>, mappingApi: string -> Response): (r: Result<Table>)
    ensures r.Ok? <==> forall i :: 0 <= i < |ids| ==> UniProt.Lookup(ids[i], mappingApi).Ok?
    ensures r.Ok? ==> |r.value| == |ids| + 1 && r.value[0] == HeaderRow(Header)
    ensures r.Ok? ==> forall k :: 0 <= k < |ids| ==>
                        r.value[k + 1] == [JStr(Upper(ids[k])),
                                           JStr(UniProt.MappingCell(UniProt.Lookup(ids[k], mappingApi).value))]
  {
    var rows :- Seqs.MapAll(ids, id => MappingRow(id, mappingApi));
    Ok([HeaderRow(Header)] + rows)
  }

  /** A written row reads back: its upper-case identifier looks up the same accessions as the
      identifier read from the file, and its cell parses to exactly those accessions. */
  lemma RowReadsBack(pdbId: string, mappingApi: string -> Response)
    requires UniProt.Lookup(pdbId, mappingApi).Ok?
    requires var accessions := UniProt.Lookup(pdbId, mappingApi).value;
             && (forall i :: 0 <= i < |accessions| ==> ',' !in accessions[i])
             && accessions != [""] && accessions != ["N/A"]
    ensures var row := MappingRow(pdbId, mappingApi).value;
            && UniProt.Lookup(row[0].s, mappingApi) == UniProt.Lookup(pdbId, mappingApi)
            && UniProt.ParseMappingCell(row[1].s) == UniProt.Lookup(pdbId, mappingApi).value
  {
    LowerOfUpper(pdbId);
    UniProt.LookupIgnoresCase(Upper(pdbId), pdbId, mappingApi);
    UniProt.MappingCellRoundTrip(UniProt.Lookup(pdbId, mappingApi).value);
  }
}
